=== FILE: README.md ===
# Fragment grid layout, modelled in Dafny

This project models the layout engine of a fragment board. Fragments are text cards with notes and tags. Each card gets a size that depends on its content. It is then placed on a 200 x 200 occupancy grid, inside a container `CONTAINER_COLS` cells wide, with a one-cell spacing halo to the right of it and below it.

- **Pass A** handles fragments that arrive with a stored position:
  - a problematic stored position (the origin or a negative coordinate) is repaired by a first-fit search;
  - a position that overflows the container's right edge is clipped;
  - a stored position that is free is kept;
  - a stored position that conflicts with an earlier card is relocated by the search.
- **Pass B** places the fragments without a stored position by the same search.
- The engine returns:
  - the placed cards, in pass order;
  - the `newPositions` patch, which holds the positions the caller must write back.

Modules:

- `Geometry` holds the value types and the configuration the engine reads but does not define: cell size, container columns, truncation limits and the `truncateText` utility.
- `SizeEstimator` holds the size formulas. Decimals are exact hundredths.
- `OccupancyGrid` holds `isGridOccupied` and `markGridAsOccupied`, which work on an `array2<bool>`.
- `PlacementSearch` holds the three-pass first-fit search.
- `Coordinates` converts between grid cells and pixels.
- `Directions` holds `createDirectionMap` and the resolution rule for a card's direction. The heuristic `decideDirection` is a parameter.
- `Boxes` is the abstract view of the grid: the set of closed rectangles marked so far, tied to the grid cells by `Represents`.
- `Layout` holds the layout computation, `ComputeLayout`. It runs both passes over a freshly allocated grid. Its loop invariant relates the grid to the union of the marked rectangles.
  - It proves that no placed card is at the origin or outside the grid.
  - It proves that the cards' rectangles are pairwise disjoint.
  - It proves the pass order of the records.
  - It proves exactly what goes into `newPositions`: the patch is specified by the recursive function `PatchOf`.
  - It proves that every dropped card was dropped at its own turn in its pass for want of room, and that a dropped card with a stored position could not keep it at that turn.
  - It proves that stored positions with nothing to repair give an empty patch.
- `Stability` proves two fixed points. Suppose the stored positions of a second run are either the first run's own output positions, or the first run's stored positions merged with its `newPositions`. Then the second run writes nothing back and places the same rectangles.

A stored position that was only clipped is not written to `newPositions`: `useLayoutFragments.ts:367` writes a kept position only when the stored position was problematic. `Layout.Patched` follows this.

String lengths are JavaScript `.length` values, i.e. UTF-16 code units (`SizeEstimator.Utf16Length`).

## Model

| member | source | states |
|---|---|---|
| SizeEstimator.CalculateFontSize | src/features/fragments/layout/useLayoutFragments.ts:34-36 | the font size is 14 for every relevance score |
| SizeEstimator.TextLines | src/features/fragments/layout/useLayoutFragments.ts:67 | the ceiling of length / 15: enough lines for the text, fewer than one line to spare, and zero only for an empty text |
| SizeEstimator.ContentLines | src/features/fragments/layout/useLayoutFragments.ts:66 | content takes at least one line, even when it is empty; otherwise the lines needed to hold it |
| SizeEstimator.TagLines | src/features/fragments/layout/useLayoutFragments.ts:68 | min(ceil(tags / 4), 2): up to 8 tags, the fewest lines of 4 that hold every tag (zero only without tags); from 8 tags on, exactly 2 |
| SizeEstimator.TagColumns | src/features/fragments/layout/useLayoutFragments.ts:95 | min(tags, 3): one column per tag up to 3 tags, and exactly 3 from 3 tags on |
| SizeEstimator.CapLines | src/features/fragments/layout/useLayoutFragments.ts:71-73 | content gets min(content, 8) lines and the note the rest of the 8-line budget: both unchanged when the demand fits, exactly 8 in total when it does not, and (8, 0) when content alone needs 8 or more |
| SizeEstimator.RoundHundredths | src/features/fragments/layout/useLayoutFragments.ts:88-89 | Math.round of a nonnegative number of hundredths: the nearest integer, with halves rounded up |
| SizeEstimator.Clamp | src/features/fragments/layout/useLayoutFragments.ts:120-123 | the result lies in [lo, hi], equals v when v is in range, and equals the bound v overshoots otherwise |
| SizeEstimator.SizeFromCounts | src/features/fragments/layout/useLayoutFragments.ts:63-123 | for every content length, note length, tag count and direction the size is 5..15 wide and 4..12 high |
| SizeEstimator.Utf16Length | src/features/fragments/layout/useLayoutFragments.ts:45-51 | `.length` of a string in UTF-16 code units: a single character counts 1 inside the Basic Multilingual Plane and 2 outside it (a surrogate pair); with Utf16LengthAppend this fixes the length of every string, which lies between the number of characters and twice that and equals it when every character is in the Basic Multilingual Plane |
| SizeEstimator.Utf16LengthAppend | src/features/fragments/layout/useLayoutFragments.ts:45-51 | the UTF-16 length of a concatenation is the sum of the lengths |
| SizeEstimator.CalculateFragmentSize | src/features/fragments/layout/useLayoutFragments.ts:39-124 | the size of a fragment, measured on the UTF-16 lengths of its truncated texts, is 5..15 wide and 4..12 high, whatever the truncation utility returns |
| SizeEstimator.FixedAxis | src/features/fragments/layout/useLayoutFragments.ts:83-116 | horizontal cards are always 11 wide; vertical cards are always 12 high |
| SizeEstimator.TextExtentGrowsWithContent | src/features/fragments/layout/useLayoutFragments.ts:66-79 | more content never shrinks the extent across the text lines, although the note lines it displaces are capped |
| SizeEstimator.SizeGrowsWithContent | src/features/fragments/layout/useLayoutFragments.ts:63-117 | more content never gives a lower horizontal card or a narrower vertical card |
| SizeEstimator.EmptyFragmentSize | src/features/fragments/layout/useLayoutFragments.ts:63-123 | an empty fragment is 11 x 5 horizontally and 5 x 12 vertically |
| OccupancyGrid.IsGridOccupied | src/features/fragments/layout/useLayoutFragments.ts:127-181 | true exactly when the position fails the strict bound check or some cell of the closed rectangle (footprint, right column, bottom row, corner) is set; the grid is not changed |
| OccupancyGrid.MarkGridAsOccupied | src/features/fragments/layout/useLayoutFragments.ts:184-223 | sets exactly the in-grid cells of the closed rectangle and leaves every other cell as it was; afterwards an in-bounds position reads as occupied |
| PlacementSearch.FindPlacementPosition | src/features/fragments/layout/useLayoutFragments.ts:226-261 | returns the first candidate, in the order of the three passes, that ends inside the container and is free. Returns null exactly when no candidate is. Never returns (0,0) and never changes the grid |
| Coordinates.GridToPixel | src/features/fragments/layout/useLayoutFragments.ts:264-269 | with a positive cell size, both pixel coordinates are exact multiples of it, and dividing them by it gives back the cell |
| Coordinates.RoundDiv | src/features/fragments/layout/useLayoutFragments.ts:274-275 | Math.round(x / d) for integer pixels: the nearest integer, with halves rounded up |
| Coordinates.PixelToGrid | src/features/fragments/layout/useLayoutFragments.ts:272-277 | both coordinates are nonnegative; each is the nearest cell to the pixel coordinate, or 0 when that would be negative |
| Coordinates.PixelRoundTrip | src/features/fragments/layout/useLayoutFragments.ts:264-277 | pixelToGrid(gridToPixel(p)) == p for every cell p with nonnegative coordinates |
| Directions.CreateDirectionMap | src/features/fragments/layout/useLayoutFragments.ts:280-296 | the map has one key per fragment id. For the last fragment with each id, the value is its explicit direction, or otherwise the heuristic's answer on its content and first note |
| Directions.ResolveDirection | src/features/fragments/layout/useLayoutFragments.ts:319 | the explicit direction wins, then the map's entry for the id, then horizontal |
| Directions.ResolveAgreesWithMap | src/features/fragments/layout/useLayoutFragments.ts:280-296 | with a map from createDirectionMap, resolution gives each fragment the direction the heuristic chose for its id |
| Layout.IsProblematicPosition | src/features/fragments/layout/useLayoutFragments.ts:299-302 | a stored position is usable exactly when both coordinates are nonnegative and it is not the origin |
| Layout.ClipCol | src/features/fragments/layout/useLayoutFragments.ts:357-360 | a position inside the container is unchanged. A clipped column is at least 1 and the row is kept. A card narrower than the container is moved left to end exactly at the right edge |
| Layout.ClipIdempotent | src/features/fragments/layout/useLayoutFragments.ts:357-360 | clipping a clipped position changes nothing |
| Layout.Prepare | src/features/fragments/layout/useLayoutFragments.ts:318-333 | each fragment keeps its identity and gets font size 14 and a size within the card limits |
| Layout.PrepareAll | src/features/fragments/layout/useLayoutFragments.ts:318-333 | one prepared fragment per input fragment, in input order, each at most 15 wide |
| Layout.PlaceStored | src/features/fragments/layout/useLayoutFragments.ts:341-381 | pass A for one fragment appends at most one record, whose rectangle is clear of the earlier ones. A patched record is the first fit; a stored position that is usable once clipped is kept. With no record, nothing fits. The grid still represents the records and the patch is updated |
| Layout.PlaceNew | src/features/fragments/layout/useLayoutFragments.ts:386-397 | pass B for one fragment appends the first fit, or no record when nothing fits; the grid and the patch follow |
| Layout.ComputeLayout | src/features/fragments/layout/useLayoutFragments.ts:313-399 | the records are the input fragments with their computed properties: pass A in input order, then pass B in input order. No record is at the origin, every record is inside the grid, and records narrower than the container end inside it. The rectangles are pairwise disjoint. Every record is reconciled against its predecessors. newPositions is exactly the patch of the records. Every fragment without a record was dropped at its turn in its own pass: a fragment with a stored position after exactly the pass A records of earlier fragments, where its position could not be kept; a fragment without one after all pass A records and exactly the pass B records of earlier fragments. At that turn it fit nowhere among the records pushed so far. Every such fragment fits nowhere among all the records. When the stored positions are quiet (each can be kept or fits nowhere, and no new fragment fits among the kept boxes), newPositions is empty and the records are exactly the kept boxes |
| Layout.PatchOfKeys | src/features/fragments/layout/useLayoutFragments.ts:345-396 | newPositions holds exactly the ids of new fragments, repaired problematic positions and relocated conflicts |
| Layout.PatchOfValue | src/features/fragments/layout/useLayoutFragments.ts:350-392 | the value written for an id is the position of the last patched record with that id |
| Layout.PatchOfEmpty | src/features/fragments/layout/useLayoutFragments.ts:336-399 | newPositions is empty exactly when no record was patched |
| Layout.PremiseAfterStoredPush | src/features/fragments/layout/useLayoutFragments.ts:345-369 | with quiet stored positions, pass A records a fragment at its kept box and does not patch it |
| Layout.PremiseBlocksNew | src/features/fragments/layout/useLayoutFragments.ts:386-392 | with quiet stored positions and the kept boxes placed, pass B cannot place a new fragment |
| Boxes.DisjointIffNoCommonCell | src/features/fragments/layout/useLayoutFragments.ts:127-181 | two closed rectangles are separated along an axis exactly when they share no cell |
| Boxes.OccupiedIffNotClear | src/features/fragments/layout/useLayoutFragments.ts:127-181 | on a grid that holds the union of the placed rectangles, isGridOccupied is "out of bounds or overlapping a placed rectangle" |
| Boxes.MarkedRepresents | src/features/fragments/layout/useLayoutFragments.ts:184-223 | marking an in-bounds rectangle adds exactly that rectangle to the set the grid represents |
| Boxes.SearchAgainstBoxes | src/features/fragments/layout/useLayoutFragments.ts:226-261 | on such a grid, findPlacementPosition returns the first fit against the placed rectangles, and null only when nothing fits |
| Boxes.NoFitGrows | src/features/fragments/layout/useLayoutFragments.ts:372-379 | a card that fits nowhere still fits nowhere after more cards are placed |
| Stability.PatchedIdsAreRecords | src/features/fragments/layout/useLayoutFragments.ts:345-396 | every id written to a patch of a layout's records belongs to a fragment that got a record |
| Stability.RecordClipFixed | src/features/fragments/layout/useLayoutFragments.ts:357-381 | a record's position is already clipped: a first fit ends inside the container, and a kept position was clipped once |
| Stability.RecordKeepable | src/features/fragments/layout/useLayoutFragments.ts:345-369 | under stored positions that reproduce a layout, each record's stored position can be kept against the records of earlier fragments, at the record's own box |
| Stability.RecordsBelowStep | src/features/fragments/layout/useLayoutFragments.ts:336-397 | each fragment adds exactly the box of its record to the records of the fragments before it, or nothing when it has none |
| Stability.KeptIsRecords | src/features/fragments/layout/useLayoutFragments.ts:341-381 | under stored positions that reproduce a layout, the boxes pass A keeps among the fragments below n are exactly the records of those fragments |
| Stability.ReproducedIsQuiet | src/features/fragments/layout/useLayoutFragments.ts:341-397 | stored positions that reproduce a layout are quiet, and pass A keeps exactly the layout's boxes |
| Stability.LaidOutReproduces | src/features/fragments/layout/useLayoutFragments.ts:341-397 | a layout's own output positions reproduce it: every record is stored at a usable position that clips to itself |
| Stability.MergedReproduces | src/features/fragments/layout/useLayoutFragments.ts:341-397 | the stored positions merged with newPositions reproduce the layout: records are stored at their positions, dropped fragments keep the position they had |
| Stability.RelayoutIsStable | src/features/fragments/layout/useLayoutFragments.ts:313-399 | re-running with the first run's output positions writes nothing to newPositions and places the same rectangles |
| Stability.MergedRelayoutIsStable | src/features/fragments/layout/useLayoutFragments.ts:313-399 | re-running with the stored positions merged with the first run's newPositions writes nothing to newPositions and places the same rectangles |

## Left out

- The React `useMemo` wrapper and its dependency array are not modelled. The model is the computation inside it.
- Console diagnostics are not modelled.
- The `showContent`, `showNote` and `showTags` defaults are not modelled; they have no effect on the layout.
- The `position` copied into each fragment's properties (line 331) is not modelled; pass A reads the stored positions directly.
- `truncateText` and `decideDirection` live in a utility module that is not part of this model:
  - `truncateText` is a function-valued field of the configuration, and nothing is assumed about it;
  - `decideDirection` is a function parameter, so its randomised call is a fixed function in the model.
- `CONTAINER_WIDTH`, `GRID_SIZE`, `MAX_CONTENT_LENGTH` and `MAX_NOTE_LENGTH` come from a constants module that is not part of this model. They are configuration parameters.
- The tag service (`SupabaseTagsService.ts`) is not modelled: it is network access with no layout logic.
- SizeEstimator.CalculateFragmentSize: has no font-size parameter. The source always passes `calculateFontSize()`, which is 14, so the font factor is 1. Other font sizes are not modelled.
- IEEE-754 doubles are not modelled. The decimal constants are exact hundredths, and `Math.round` is "halves up" on those exact values. Pixels are integers.
- OccupancyGrid.MarkGridAsOccupied: requires that the bottom halo row is not above the grid unless the card lies right of the grid. Otherwise the source indexes a missing row and throws, and that error path is not modelled. Every caller in the layout passes an in-bounds position.
- Layout.ComputeLayout: keeps a record inside the container only when its card is narrower than the container. The clip cannot do better for wider cards.
- Stability.RelayoutIsStable: requires distinct fragment ids, as does Stability.MergedRelayoutIsStable. With a repeated id, the later fragment's record overwrites the earlier one's entry in `newPositions`, and the fixed point is not stated for that case.
- Aliasing of the caller's position objects is not modelled. Positions are values.

=== FILE: boxes.dfy ===
/** The abstract view of the 200 x 200 occupancy grid used by the layout: the set
    of closed rectangles (footprint plus halo) marked so far. */
module Boxes {
  import opened Geometry
  import opened OccupancyGrid
  import opened PlacementSearch

  /** The grid the layout allocates for each computation. */
  const ROWS := 200
  const COLS := 200

  /** A placed card's position and size, i.e. its closed rectangle. */
  datatype Box = Box(position: GridPosition, size: FragmentSize)

  /** The closed rectangles of two boxes are separated along some axis. */
  predicate Disjoint(a: Box, b: Box)
  {
    a.position.row + a.size.height < b.position.row || b.position.row + b.size.height < a.position.row ||
    a.position.col + a.size.width < b.position.col || b.position.col + b.size.width < a.position.col
  }

  /** Separation along an axis is the same as having no cell in common. */
  lemma DisjointIffNoCommonCell(a: Box, b: Box)
    ensures Disjoint(a, b) <==>
      !exists r, c :: InBox(a.position, a.size, r, c) && InBox(b.position, b.size, r, c)
  {
    if !Disjoint(a, b) {
      var r := Max(a.position.row, b.position.row);
      var c := Max(a.position.col, b.position.col);
      assert InBox(a.position, a.size, r, c) && InBox(b.position, b.size, r, c);
    }
  }

  /** Cell (r, c) lies in the closed rectangle of some box. */
  ghost predicate Covered(boxes: set<Box>, r: int, c: int)
  {
    exists b :: b in boxes && InBox(b.position, b.size, r, c)
  }

  /** `b` shares no cell with any box of the set. */
  ghost predicate Clear(boxes: set<Box>, b: Box)
  {
    forall o :: o in boxes ==> Disjoint(o, b)
  }

  /** The grid is the layout's grid and holds exactly the union of the boxes,
      each of which passed the bound check. */
  ghost predicate Represents(grid: array2<bool>, boxes: set<Box>)
    reads grid
  {
    grid.Length0 == ROWS && grid.Length1 == COLS &&
    (forall b :: b in boxes ==> InBounds(ROWS, COLS, b.position, b.size)) &&
    forall r, c :: 0 <= r < ROWS && 0 <= c < COLS ==> grid[r, c] == Covered(boxes, r, c)
  }

  /** isGridOccupied on a grid that represents `boxes` answers "out of bounds or
      overlapping one of the boxes". */
  lemma OccupiedIffNotClear(grid: array2<bool>, boxes: set<Box>, b: Box)
    requires Represents(grid, boxes)
    ensures Occupied(grid, b.position, b.size) <==> !(InBounds(ROWS, COLS, b.position, b.size) && Clear(boxes, b))
  {
    if InBounds(ROWS, COLS, b.position, b.size) {
      if Occupied(grid, b.position, b.size) {
        var r, c :| 0 <= r < ROWS && 0 <= c < COLS && InBox(b.position, b.size, r, c) && grid[r, c];
        var o :| o in boxes && InBox(o.position, o.size, r, c);
        DisjointIffNoCommonCell(o, b);
      }
      if !Clear(boxes, b) {
        var o :| o in boxes && !Disjoint(o, b);
        var r := Max(o.position.row, b.position.row);
        var c := Max(o.position.col, b.position.col);
        assert InBox(o.position, o.size, r, c) && InBox(b.position, b.size, r, c);
        assert grid[r, c];
      }
    }
  }

  /** Marking an in-bounds box on a grid that represents `boxes` yields a grid
      that represents `boxes + {b}`. */
  lemma MarkedRepresents(grid: array2<bool>, boxes: set<Box>, b: Box)
    requires grid.Length0 == ROWS && grid.Length1 == COLS
    requires forall o :: o in boxes ==> InBounds(ROWS, COLS, o.position, o.size)
    requires InBounds(ROWS, COLS, b.position, b.size)
    requires forall r, c :: 0 <= r < ROWS && 0 <= c < COLS ==>
      grid[r, c] == (Covered(boxes, r, c) || InBox(b.position, b.size, r, c))
    ensures Represents(grid, boxes + {b})
  {
    forall r, c | 0 <= r < ROWS && 0 <= c < COLS
      ensures grid[r, c] == Covered(boxes + {b}, r, c)
    {
      if InBox(b.position, b.size, r, c) {
        assert b in boxes + {b};
      } else if Covered(boxes + {b}, r, c) {
        var o :| o in boxes + {b} && InBox(o.position, o.size, r, c);
        assert o in boxes;
      }
    }
  }

  /** The acceptance test of the placement search, stated against the boxes. */
  ghost predicate Acceptable(boxes: set<Box>, size: FragmentSize, containerCols: int, r: int, c: int)
  {
    c + size.width <= containerCols &&
    InBounds(ROWS, COLS, GridPosition(r, c), size) && Clear(boxes, Box(GridPosition(r, c), size))
  }

  /** On a grid that represents `boxes`, the search's test is the test against the boxes. */
  lemma FitsIffAcceptable(grid: array2<bool>, boxes: set<Box>, size: FragmentSize, containerCols: int, r: int, c: int)
    requires Represents(grid, boxes)
    ensures Fits(grid, size, containerCols, r, c) <==> Acceptable(boxes, size, containerCols, r, c)
  {
    OccupiedIffNotClear(grid, boxes, Box(GridPosition(r, c), size));
  }

  /** No candidate of the placement search is acceptable against `boxes`. */
  ghost predicate NoFit(boxes: set<Box>, size: FragmentSize, containerCols: int)
  {
    forall r, c :: Candidate(ROWS, MaxCols(COLS, containerCols), r, c) ==> !Acceptable(boxes, size, containerCols, r, c)
  }

  /** `position` is the first candidate, in search order, acceptable against `boxes`. */
  ghost predicate FirstFit(boxes: set<Box>, size: FragmentSize, containerCols: int, position: GridPosition)
  {
    Candidate(ROWS, MaxCols(COLS, containerCols), position.row, position.col) &&
    Acceptable(boxes, size, containerCols, position.row, position.col) &&
    forall r, c :: Candidate(ROWS, MaxCols(COLS, containerCols), r, c) && Earlier(r, c, position.row, position.col) ==>
      !Acceptable(boxes, size, containerCols, r, c)
  }

  /** What findPlacementPosition returns on a grid representing `boxes`: the first
      fit against the boxes, or None exactly when nothing fits. */
  lemma SearchAgainstBoxes(grid: array2<bool>, boxes: set<Box>, size: FragmentSize, containerCols: int, found: Option<GridPosition>)
    requires Represents(grid, boxes)
    requires found.Some? ==>
      var p := found.value;
      Candidate(grid.Length0, MaxCols(grid.Length1, containerCols), p.row, p.col) &&
      Fits(grid, size, containerCols, p.row, p.col) &&
      forall r, c :: Candidate(grid.Length0, MaxCols(grid.Length1, containerCols), r, c) && Earlier(r, c, p.row, p.col) ==>
        !Fits(grid, size, containerCols, r, c)
    requires found.None? ==>
      forall r, c :: Candidate(grid.Length0, MaxCols(grid.Length1, containerCols), r, c) ==>
        !Fits(grid, size, containerCols, r, c)
    ensures found.Some? ==> FirstFit(boxes, size, containerCols, found.value)
    ensures found.None? ==> NoFit(boxes, size, containerCols)
  {
    forall r, c | true
      ensures Fits(grid, size, containerCols, r, c) <==> Acceptable(boxes, size, containerCols, r, c)
    {
      FitsIffAcceptable(grid, boxes, size, containerCols, r, c);
    }
  }

  /** A card that fits nowhere keeps fitting nowhere as more boxes are placed. */
  lemma NoFitGrows(small: set<Box>, big: set<Box>, size: FragmentSize, containerCols: int)
    requires small <= big && NoFit(small, size, containerCols)
    ensures NoFit(big, size, containerCols)
  {
    forall r, c | Candidate(ROWS, MaxCols(COLS, containerCols), r, c)
      ensures !Acceptable(big, size, containerCols, r, c)
    {
      if c + size.width <= containerCols && InBounds(ROWS, COLS, GridPosition(r, c), size) {
        assert !Acceptable(small, size, containerCols, r, c);
        var o :| o in small && !Disjoint(o, Box(GridPosition(r, c), size));
        assert o in big;
      }
    }
  }

  /** A first fit is a fit, so the card does not fit nowhere. */
  lemma FirstFitIsFit(boxes: set<Box>, size: FragmentSize, containerCols: int, position: GridPosition)
    requires FirstFit(boxes, size, containerCols, position)
    ensures !NoFit(boxes, size, containerCols)
  {
    assert Candidate(ROWS, MaxCols(COLS, containerCols), position.row, position.col);
  }
}

=== FILE: coordinates.dfy ===
/** Conversion between grid cells and pixels (pixels modelled as integers). */
module Coordinates {
  import opened Geometry

  datatype PixelPosition = PixelPosition(top: int, left: int)

  /** gridToPixel: each coordinate times the cell length, so every pixel
      coordinate is a whole number of cells and exact division recovers the cell. */
  function GridToPixel(position: GridPosition, gridSize: int): (pixel: PixelPosition)
    ensures gridSize > 0 ==>
      pixel.top % gridSize == 0 && pixel.top / gridSize == position.row &&
      pixel.left % gridSize == 0 && pixel.left / gridSize == position.col
  {
    ExactDivision(position.row, gridSize);
    ExactDivision(position.col, gridSize);
    PixelPosition(position.row * gridSize, position.col * gridSize)
  }

  /** A multiple of a positive d divides by d exactly. */
  lemma ExactDivision(n: int, d: int)
    ensures d > 0 ==> (n * d) % d == 0 && (n * d) / d == n
  {
    if d > 0 {
      var q, r := (n * d) / d, (n * d) % d;
      var k := n - q;
      assert d * k == r;
      if k >= 1 {
        MulAtLeast(k, d);
      } else if k <= -1 {
        MulAtLeast(-k, d);
      }
    }
  }

  /** JavaScript rounding of x / d: the integer nearest to x / d, halves rounded up. */
  function RoundDiv(x: int, d: int): (q: int)
    requires d > 0
    ensures 2 * d * q - d <= 2 * x < 2 * d * q + d
  {
    (2 * x + d) / (2 * d)
  }

  /** pixelToGrid: round each coordinate to the nearest cell, never below 0. */
  function PixelToGrid(top: int, left: int, gridSize: int): (position: GridPosition)
    requires gridSize > 0
    ensures position.row >= 0 && position.col >= 0
    ensures 2 * top + gridSize >= 0 ==>
      2 * gridSize * position.row - gridSize <= 2 * top < 2 * gridSize * position.row + gridSize
    ensures 2 * left + gridSize >= 0 ==>
      2 * gridSize * position.col - gridSize <= 2 * left < 2 * gridSize * position.col + gridSize
    ensures 2 * top + gridSize < 0 ==> position.row == 0
    ensures 2 * left + gridSize < 0 ==> position.col == 0
  {
    GridPosition(Max(0, RoundDiv(top, gridSize)), Max(0, RoundDiv(left, gridSize)))
  }

  /** d * k >= d for every positive multiplier k. */
  lemma {:induction false} MulAtLeast(k: int, d: int)
    requires k >= 1 && d > 0
    ensures d * k >= d
  {
    if k > 1 {
      MulAtLeast(k - 1, d);
      assert d * k == d * (k - 1) + d;
    }
  }

  /** Rounding an exact multiple of d gives back the multiplier. */
  lemma RoundDivOfMultiple(n: int, d: int)
    requires d > 0
    ensures RoundDiv(n * d, d) == n
  {
    var q := RoundDiv(n * d, d);
    var k := q - n;
    assert 2 * d * q == 2 * (d * k) + 2 * (n * d);
    assert 2 * (d * k) <= d && -2 * (d * k) < d;
    if k >= 1 {
      MulAtLeast(k, d);
    } else if k <= -1 {
      MulAtLeast(-k, d);
    }
  }

  /** Converting a cell with nonnegative coordinates to pixels and back is the identity. */
  lemma PixelRoundTrip(position: GridPosition, gridSize: int)
    requires gridSize > 0 && position.row >= 0 && position.col >= 0
    ensures var pixel := GridToPixel(position, gridSize);
            PixelToGrid(pixel.top, pixel.left, gridSize) == position
  {
    RoundDivOfMultiple(position.row, gridSize);
    RoundDivOfMultiple(position.col, gridSize);
  }
}

=== FILE: directions.dfy ===
/** Reading-direction resolution. The external heuristic `decideDirection` is a
    parameter: it receives the content and the first note's text, if any. */
module Directions {
  import opened Geometry

  /** The text of the first note, absent when the fragment has no notes. */
  function FirstNote(fragment: Fragment): Option<string>
  {
    if |fragment.notes| > 0 then Some(fragment.notes[0]) else None
  }

  /** The direction createDirectionMap records for one fragment. */
  function HeuristicDirection(fragment: Fragment, decide: (string, Option<string>) -> Direction): Direction
  {
    match fragment.direction
    case Some(d) => d
    case None => decide(fragment.content, FirstNote(fragment))
  }

  /** No later fragment among the first n shares the id of fragments[i]. */
  predicate LastWithId(fragments: seq<Fragment>, n: int, i: int)
    requires 0 <= i < n <= |fragments|
  {
    forall k :: i < k < n ==> fragments[k].id != fragments[i].id
  }

  /** createDirectionMap: one entry per id; when ids repeat the last fragment wins. */
  method CreateDirectionMap(fragments: seq<Fragment>, decide: (string, Option<string>) -> Direction)
    returns (directionMap: map<string, Direction>)
    ensures directionMap.Keys == set i | 0 <= i < |fragments| :: fragments[i].id
    ensures forall i :: 0 <= i < |fragments| && LastWithId(fragments, |fragments|, i) ==>
      directionMap[fragments[i].id] == HeuristicDirection(fragments[i], decide)
  {
    directionMap := map[];
    for n := 0 to |fragments|
      invariant directionMap.Keys == set i | 0 <= i < n :: fragments[i].id
      invariant forall i :: 0 <= i < n && LastWithId(fragments, n, i) ==>
        directionMap[fragments[i].id] == HeuristicDirection(fragments[i], decide)
    {
      var fragment := fragments[n];
      if fragment.direction.Some? {
        directionMap := directionMap[fragment.id := fragment.direction.value];
      } else {
        directionMap := directionMap[fragment.id := decide(fragment.content, FirstNote(fragment))];
      }
    }
  }

  /** A fragment's own direction wins; otherwise the map's entry for its id;
      otherwise horizontal. */
  function ResolveDirection(fragment: Fragment, directionMap: map<string, Direction>): (direction: Direction)
    ensures fragment.direction.Some? ==> direction == fragment.direction.value
    ensures fragment.direction.None? && fragment.id in directionMap ==> direction == directionMap[fragment.id]
    ensures fragment.direction.None? && fragment.id !in directionMap ==> direction == Horizontal
  {
    if fragment.direction.Some? then fragment.direction.value
    else if fragment.id in directionMap then directionMap[fragment.id]
    else Horizontal
  }

  /** Resolving against a map built by createDirectionMap gives the heuristic's
      answer for the last fragment carrying each id. */
  lemma ResolveAgreesWithMap(fragments: seq<Fragment>, decide: (string, Option<string>) -> Direction,
                             directionMap: map<string, Direction>, i: int)
    requires 0 <= i < |fragments| && LastWithId(fragments, |fragments|, i)
    requires directionMap.Keys == set j | 0 <= j < |fragments| :: fragments[j].id
    requires forall j :: 0 <= j < |fragments| && LastWithId(fragments, |fragments|, j) ==>
      directionMap[fragments[j].id] == HeuristicDirection(fragments[j], decide)
    ensures ResolveDirection(fragments[i], directionMap) == HeuristicDirection(fragments[i], decide)
  {
  }
}

=== FILE: geometry.dfy ===
/** Value types shared by the layout engine: fragments, grid positions, sizes,
    the configuration the engine reads, and the fragment as placed on the grid. */
module Geometry {

  datatype Option<T> = None | Some(value: T)

  /** Reading direction of a fragment; selects the size formula. */
  datatype Direction = Horizontal | Vertical

  /** A cell of the occupancy grid; coordinates may be negative in stored input. */
  datatype GridPosition = GridPosition(row: int, col: int)

  /** Width and height of a card in grid cells. */
  datatype FragmentSize = FragmentSize(width: nat, height: nat)

  /** A content card as the engine reads it: `notes` holds the text of each note,
      `tags` the tag names (only their number matters), `direction` the explicit
      reading direction if the fragment carries one. */
  datatype Fragment = Fragment(
    id: string,
    content: string,
    notes: seq<string>,
    tags: seq<string>,
    direction: Option<Direction>)

  /** A fragment augmented with its resolved direction, font size, size and final position. */
  datatype GridFragment = GridFragment(
    fragment: Fragment,
    direction: Direction,
    fontSize: int,
    size: FragmentSize,
    position: GridPosition)

  /** The configuration the engine depends on but does not define:
      `containerCols` is floor(CONTAINER_WIDTH / GRID_SIZE), `gridSize` the pixel
      length of one cell, and `truncate` the external text-truncation utility. */
  datatype Config = Config(
    gridSize: int,
    containerCols: int,
    maxContentLength: nat,
    maxNoteLength: nat,
    truncate: (string, nat) -> string)

  function Max(a: int, b: int): int { if a >= b then a else b }
  function Min(a: int, b: int): int { if a <= b then a else b }
}

=== FILE: layout.dfy ===
/** The layout computation: size every fragment, then place the fragments that
    have a stored position (pass A) and after them the ones that have none
    (pass B) on a fresh 200 x 200 occupancy grid, and collect the positions that
    must be written back. */
module Layout {
  import opened Geometry
  import opened SizeEstimator
  import opened OccupancyGrid
  import opened PlacementSearch
  import opened Directions
  import opened Boxes

  /** A stored position is unusable: the origin, or a negative coordinate. A
      usable position is any other cell of the nonnegative quadrant. */
  function IsProblematicPosition(position: GridPosition): (problematic: bool)
    ensures !problematic <==> 0 <= position.row && 0 <= position.col && position != GridPosition(0, 0)
  {
    (position.row == 0 && position.col == 0) || position.row < 0 || position.col < 0
  }

  /** Right-edge clipping of a stored position: a card that would overflow the
      container is moved left to end at its edge, but never to a column below 1. */
  function ClipCol(position: GridPosition, width: nat, containerCols: int): (clipped: GridPosition)
    ensures clipped.row == position.row
    ensures position.col + width <= containerCols ==> clipped == position
    ensures position.col + width > containerCols ==> clipped.col >= 1
    ensures !IsProblematicPosition(position) ==> !IsProblematicPosition(clipped)
    ensures position.col + width > containerCols && width < containerCols ==>
      clipped.col + width == containerCols && clipped.col < position.col
  {
    if position.col + width > containerCols then position.(col := Max(1, containerCols - width))
    else position
  }

  /** Clipping twice is clipping once: a clipped column is left where it is. */
  lemma ClipIdempotent(position: GridPosition, width: nat, containerCols: int)
    ensures var clipped := ClipCol(position, width, containerCols);
      ClipCol(clipped, width, containerCols) == clipped
  {
  }

  /** A fragment with the properties the layout computes before placing anything:
      its resolved direction, its font size and its card size. */
  datatype Prepared = Prepared(fragment: Fragment, direction: Direction, fontSize: int, size: FragmentSize)

  /** The properties of one fragment (the callback of `fragments.map`). */
  function Prepare(fragment: Fragment, directionMap: map<string, Direction>, cfg: Config): (p: Prepared)
    ensures p.fragment == fragment && p.fontSize == BASE_FONT_SIZE
    ensures MIN_CARD_WIDTH <= p.size.width <= MAX_CARD_WIDTH && MIN_CARD_HEIGHT <= p.size.height <= MAX_CARD_HEIGHT
  {
    var direction := ResolveDirection(fragment, directionMap);
    Prepared(fragment, direction, CalculateFontSize(0.0), CalculateFragmentSize(fragment, direction, cfg))
  }

  /** The prepared fragments, in input order. */
  function PrepareAll(fragments: seq<Fragment>, directionMap: map<string, Direction>, cfg: Config): (props: seq<Prepared>)
    ensures |props| == |fragments|
    ensures forall i :: 0 <= i < |fragments| ==> props[i].fragment == fragments[i] && props[i].size.width <= MAX_CARD_WIDTH
  {
    seq(|fragments|, i requires 0 <= i < |fragments| => Prepare(fragments[i], directionMap, cfg))
  }

  /** The output record for a prepared fragment placed at `position`. */
  function Place(p: Prepared, position: GridPosition): GridFragment
  {
    GridFragment(p.fragment, p.direction, p.fontSize, p.size, position)
  }

  function BoxOf(g: GridFragment): Box
  {
    Box(g.position, g.size)
  }

  ghost function BoxSet(placed: seq<GridFragment>): set<Box>
  {
    set k | 0 <= k < |placed| :: BoxOf(placed[k])
  }

  lemma BoxSetAppend(placed: seq<GridFragment>, g: GridFragment)
    ensures BoxSet(placed + [g]) == BoxSet(placed) + {BoxOf(g)}
  {
    var extended := placed + [g];
    assert BoxOf(extended[|placed|]) in BoxSet(extended);
    forall b | b in BoxSet(extended) ensures b in BoxSet(placed) + {BoxOf(g)} {
      var k :| 0 <= k < |extended| && b == BoxOf(extended[k]);
      if k < |placed| {
        assert extended[k] == placed[k];
      }
    }
    forall b | b in BoxSet(placed) ensures b in BoxSet(extended) {
      var k :| 0 <= k < |placed| && b == BoxOf(placed[k]);
      assert extended[k] == placed[k];
    }
  }

  /** Every output record keeps the engine's guarantees: never a problematic
      position, inside the grid with its halo, and inside the container whenever
      the card is narrower than the container. */
  predicate Good(g: GridFragment, containerCols: int)
  {
    !IsProblematicPosition(g.position) &&
    InBounds(ROWS, COLS, g.position, g.size) &&
    (g.size.width < containerCols ==> g.position.col + g.size.width <= containerCols)
  }

  /** The source writes a record's position to newPositions: new fragments,
      repaired problematic positions and relocations after a conflict. A stored
      position that was only clipped is not written. */
  predicate Patched(positions: map<string, GridPosition>, g: GridFragment, containerCols: int)
  {
    g.fragment.id !in positions ||
    IsProblematicPosition(positions[g.fragment.id]) ||
    g.position != ClipCol(positions[g.fragment.id], g.size.width, containerCols)
  }

  /** newPositions after the records `placed` were pushed, in order. */
  function PatchOf(positions: map<string, GridPosition>, placed: seq<GridFragment>, containerCols: int)
    : map<string, GridPosition>
  {
    if |placed| == 0 then map[]
    else
      var g := placed[|placed| - 1];
      var earlier := PatchOf(positions, placed[..|placed| - 1], containerCols);
      if Patched(positions, g, containerCols) then earlier[g.fragment.id := g.position] else earlier
  }

  lemma PatchOfAppend(positions: map<string, GridPosition>, placed: seq<GridFragment>, g: GridFragment, containerCols: int)
    ensures PatchOf(positions, placed + [g], containerCols) ==
      if Patched(positions, g, containerCols) then PatchOf(positions, placed, containerCols)[g.fragment.id := g.position]
      else PatchOf(positions, placed, containerCols)
  {
    assert (placed + [g])[..|placed|] == placed;
  }

  /** Exactly the ids of patched records are keys of newPositions. */
  lemma {:induction false} PatchOfKeys(positions: map<string, GridPosition>, placed: seq<GridFragment>, containerCols: int)
    ensures PatchOf(positions, placed, containerCols).Keys ==
      set k | 0 <= k < |placed| && Patched(positions, placed[k], containerCols) :: placed[k].fragment.id
  {
    if |placed| > 0 {
      var prefix := placed[..|placed| - 1];
      PatchOfKeys(positions, prefix, containerCols);
      assert placed == prefix + [placed[|placed| - 1]];
      var keys := set k | 0 <= k < |placed| && Patched(positions, placed[k], containerCols) :: placed[k].fragment.id;
      var prefixKeys := set k | 0 <= k < |prefix| && Patched(positions, prefix[k], containerCols) :: prefix[k].fragment.id;
      forall id | id in keys
        ensures id in prefixKeys || (Patched(positions, placed[|placed| - 1], containerCols) && id == placed[|placed| - 1].fragment.id)
      {
        var k :| 0 <= k < |placed| && Patched(positions, placed[k], containerCols) && id == placed[k].fragment.id;
        if k < |prefix| {
          assert prefix[k] == placed[k];
        }
      }
      forall id | id in prefixKeys ensures id in keys {
        var k :| 0 <= k < |prefix| && Patched(positions, prefix[k], containerCols) && id == prefix[k].fragment.id;
        assert prefix[k] == placed[k];
      }
    }
  }

  /** The value written for an id is the position of the last patched record with that id. */
  lemma {:induction false} PatchOfValue(positions: map<string, GridPosition>, placed: seq<GridFragment>, containerCols: int, k: int)
    requires 0 <= k < |placed| && Patched(positions, placed[k], containerCols)
    requires forall j :: k < j < |placed| && Patched(positions, placed[j], containerCols) ==>
      placed[j].fragment.id != placed[k].fragment.id
    ensures placed[k].fragment.id in PatchOf(positions, placed, containerCols)
    ensures PatchOf(positions, placed, containerCols)[placed[k].fragment.id] == placed[k].position
  {
    var prefix := placed[..|placed| - 1];
    if k < |placed| - 1 {
      PatchOfValue(positions, prefix, containerCols, k);
    }
  }

  /** newPositions is empty exactly when no record is patched. */
  lemma {:induction false} PatchOfEmpty(positions: map<string, GridPosition>, placed: seq<GridFragment>, containerCols: int)
    ensures PatchOf(positions, placed, containerCols) == map[] <==>
      forall k :: 0 <= k < |placed| ==> !Patched(positions, placed[k], containerCols)
  {
    if |placed| > 0 {
      var prefix := placed[..|placed| - 1];
      PatchOfEmpty(positions, prefix, containerCols);
      var last := placed[|placed| - 1];
      if Patched(positions, last, containerCols) {
        assert last.fragment.id in PatchOf(positions, placed, containerCols);
      }
      assert forall k :: 0 <= k < |prefix| ==> prefix[k] == placed[k];
    }
  }

  /** A stored position can be kept: it is not problematic and, once clipped, it
      is inside the grid and clear of `boxes`. */
  ghost predicate KeepableAt(stored: GridPosition, size: FragmentSize, boxes: set<Box>, containerCols: int)
  {
    var clipped := ClipCol(stored, size.width, containerCols);
    !IsProblematicPosition(stored) && InBounds(ROWS, COLS, clipped, size) && Clear(boxes, Box(clipped, size))
  }

  /** The reconciliation rule for a record pushed after the records `earlier`: a
      patched record is the first fit against them, and a record whose stored
      position could be kept is at that (clipped) position. */
  ghost predicate RecordReconciled(positions: map<string, GridPosition>, earlier: seq<GridFragment>,
                                   g: GridFragment, containerCols: int)
  {
    (Patched(positions, g, containerCols) ==> FirstFit(BoxSet(earlier), g.size, containerCols, g.position)) &&
    (g.fragment.id in positions && KeepableAt(positions[g.fragment.id], g.size, BoxSet(earlier), containerCols) ==>
      g.position == ClipCol(positions[g.fragment.id], g.size.width, containerCols))
  }

  /** Pass A for one fragment with a stored position (the body of the first forEach). */
  method PlaceStored(grid: array2<bool>, placed: seq<GridFragment>, newPositions: map<string, GridPosition>,
                     p: Prepared, positions: map<string, GridPosition>, containerCols: int)
    returns (placed': seq<GridFragment>, newPositions': map<string, GridPosition>)
    requires Represents(grid, BoxSet(placed))
    requires p.fragment.id in positions
    requires newPositions == PatchOf(positions, placed, containerCols)
    modifies grid
    ensures Represents(grid, BoxSet(placed'))
    ensures newPositions' == PatchOf(positions, placed', containerCols)
    ensures placed' == placed || (|placed'| == |placed| + 1 && placed'[..|placed|] == placed)
    ensures placed' == placed ==> NoFit(BoxSet(placed), p.size, containerCols)
    ensures placed' != placed ==>
      var g := placed'[|placed|];
      g == Place(p, g.position) && Good(g, containerCols) &&
      Clear(BoxSet(placed), BoxOf(g)) && RecordReconciled(positions, placed, g, containerCols)
    ensures KeepableAt(positions[p.fragment.id], p.size, BoxSet(placed), containerCols) ==>
      placed' != placed
  {
    var size := p.size;
    placed', newPositions' := placed, newPositions;
    var position := positions[p.fragment.id];

    if IsProblematicPosition(position) {
      var newPos := FindPlacementPosition(grid, size, containerCols);
      SearchAgainstBoxes(grid, BoxSet(placed), size, containerCols, newPos);
      if newPos.Some? {
        position := newPos.value;
        newPositions' := newPositions'[p.fragment.id := position];
      } else {
        return;
      }
    }

    position := ClipCol(position, size.width, containerCols);

    var occupied := IsGridOccupied(grid, position, size);
    OccupiedIffNotClear(grid, BoxSet(placed), Box(position, size));
    if !occupied {
      MarkGridAsOccupied(grid, position, size);
      MarkedRepresents(grid, BoxSet(placed), Box(position, size));
      var g := Place(p, position);
      BoxSetAppend(placed, g);
      PatchOfAppend(positions, placed, g, containerCols);
      placed' := placed + [g];
      if p.fragment.id !in positions || IsProblematicPosition(positions[p.fragment.id]) {
        newPositions' := newPositions'[p.fragment.id := position];
      }
    } else {
      var fallback := FindPlacementPosition(grid, size, containerCols);
      SearchAgainstBoxes(grid, BoxSet(placed), size, containerCols, fallback);
      if fallback.Some? {
        MarkGridAsOccupied(grid, fallback.value, size);
        MarkedRepresents(grid, BoxSet(placed), Box(fallback.value, size));
        var g := Place(p, fallback.value);
        BoxSetAppend(placed, g);
        PatchOfAppend(positions, placed, g, containerCols);
        placed' := placed + [g];
        newPositions' := newPositions'[p.fragment.id := fallback.value];
      }
    }
  }

  /** Pass B for one fragment without a stored position (the body of the second forEach). */
  method PlaceNew(grid: array2<bool>, placed: seq<GridFragment>, newPositions: map<string, GridPosition>,
                  p: Prepared, positions: map<string, GridPosition>, containerCols: int)
    returns (placed': seq<GridFragment>, newPositions': map<string, GridPosition>)
    requires Represents(grid, BoxSet(placed))
    requires p.fragment.id !in positions
    requires newPositions == PatchOf(positions, placed, containerCols)
    modifies grid
    ensures Represents(grid, BoxSet(placed'))
    ensures newPositions' == PatchOf(positions, placed', containerCols)
    ensures placed' == placed || (|placed'| == |placed| + 1 && placed'[..|placed|] == placed)
    ensures placed' == placed ==> NoFit(BoxSet(placed), p.size, containerCols)
    ensures placed' != placed ==>
      var g := placed'[|placed|];
      g == Place(p, g.position) && Good(g, containerCols) &&
      Clear(BoxSet(placed), BoxOf(g)) && RecordReconciled(positions, placed, g, containerCols)
  {
    var size := p.size;
    placed', newPositions' := placed, newPositions;
    var position := FindPlacementPosition(grid, size, containerCols);
    SearchAgainstBoxes(grid, BoxSet(placed), size, containerCols, position);
    if position.Some? && !IsProblematicPosition(position.value) {
      OccupiedIffNotClear(grid, BoxSet(placed), Box(position.value, size));
      MarkGridAsOccupied(grid, position.value, size);
      MarkedRepresents(grid, BoxSet(placed), Box(position.value, size));
      var g := Place(p, position.value);
      BoxSetAppend(placed, g);
      PatchOfAppend(positions, placed, g, containerCols);
      placed' := placed + [g];
      newPositions' := newPositions'[p.fragment.id := position.value];
    }
  }

  /** The boxes pass A keeps when no search is needed: walking the fragments
      below n in input order, a fragment whose stored position can be kept
      against the boxes kept before it adds its clipped box. */
  ghost function Kept(props: seq<Prepared>, positions: map<string, GridPosition>,
                      containerCols: int, n: int): set<Box>
    requires 0 <= n <= |props|
    decreases n
  {
    if n == 0 then {}
    else
      var p := props[n - 1];
      var earlier := Kept(props, positions, containerCols, n - 1);
      if p.fragment.id in positions && KeepableAt(positions[p.fragment.id], p.size, earlier, containerCols)
      then earlier + {Box(ClipCol(positions[p.fragment.id], p.size.width, containerCols), p.size)}
      else earlier
  }

  lemma KeptStep(props: seq<Prepared>, positions: map<string, GridPosition>,
                 containerCols: int, n: int)
    requires 0 <= n < |props|
    ensures var p := props[n];
      Kept(props, positions, containerCols, n + 1) ==
      if p.fragment.id in positions &&
         KeepableAt(positions[p.fragment.id], p.size, Kept(props, positions, containerCols, n), containerCols)
      then Kept(props, positions, containerCols, n) + {Box(ClipCol(positions[p.fragment.id], p.size.width, containerCols), p.size)}
      else Kept(props, positions, containerCols, n)
  {
  }

  /** Stored positions that leave the layout nothing to write back: every fragment
      with a stored position can either be kept or fits nowhere among the boxes
      kept before it, and no fragment without one fits among all kept boxes. */
  ghost predicate Quiet(props: seq<Prepared>, positions: map<string, GridPosition>, containerCols: int)
  {
    (forall i :: 0 <= i < |props| && props[i].fragment.id in positions ==>
      KeepableAt(positions[props[i].fragment.id], props[i].size, Kept(props, positions, containerCols, i), containerCols) ||
      NoFit(Kept(props, positions, containerCols, i), props[i].size, containerCols)) &&
    (forall i :: 0 <= i < |props| && props[i].fragment.id !in positions ==>
      NoFit(Kept(props, positions, containerCols, |props|), props[i].size, containerCols))
  }

  /** Output record k is input fragment origin[k] with its computed direction,
      font size and size. */
  ghost predicate Records(props: seq<Prepared>,
                          gridFragments: seq<GridFragment>, origin: seq<nat>)
  {
    |origin| == |gridFragments| &&
    forall k :: 0 <= k < |gridFragments| ==>
      origin[k] < |props| &&
      gridFragments[k] == Place(props[origin[k]], gridFragments[k].position)
  }

  /** The first storedCount records come from fragments with a stored position, the
      rest from fragments without one, each group in input order. */
  ghost predicate InPassOrder(props: seq<Prepared>, positions: map<string, GridPosition>,
                              origin: seq<nat>, storedCount: nat)
  {
    storedCount <= |origin| &&
    (forall k :: 0 <= k < |origin| ==>
      origin[k] < |props| && (props[origin[k]].fragment.id in positions <==> k < storedCount)) &&
    (forall k1, k2 :: 0 <= k1 < k2 < storedCount ==> origin[k1] < origin[k2]) &&
    (forall k1, k2 :: storedCount <= k1 < k2 < |origin| ==> origin[k1] < origin[k2])
  }

  /** The global invariants of a layout: every record is Good and the closed
      rectangles of any two records share no cell. */
  ghost predicate Sound(gridFragments: seq<GridFragment>, containerCols: int)
  {
    (forall k :: 0 <= k < |gridFragments| ==> Good(gridFragments[k], containerCols)) &&
    (forall k1, k2 :: 0 <= k1 < k2 < |gridFragments| ==>
      Disjoint(BoxOf(gridFragments[k1]), BoxOf(gridFragments[k2])))
  }

  lemma SoundAppend(placed: seq<GridFragment>, g: GridFragment, containerCols: int)
    requires Sound(placed, containerCols) && Good(g, containerCols) && Clear(BoxSet(placed), BoxOf(g))
    ensures Sound(placed + [g], containerCols)
  {
    forall k | 0 <= k < |placed| ensures Disjoint(BoxOf(placed[k]), BoxOf(g)) {
      assert BoxOf(placed[k]) in BoxSet(placed);
    }
  }

  /** Every record is reconciled against the records pushed before it. */
  ghost predicate Reconciled(positions: map<string, GridPosition>, gridFragments: seq<GridFragment>, containerCols: int)
  {
    forall k :: 0 <= k < |gridFragments| ==>
      RecordReconciled(positions, gridFragments[..k], gridFragments[k], containerCols)
  }

  lemma ReconciledAppend(positions: map<string, GridPosition>, placed: seq<GridFragment>, g: GridFragment, containerCols: int)
    requires Reconciled(positions, placed, containerCols)
    requires RecordReconciled(positions, placed, g, containerCols)
    ensures Reconciled(positions, placed + [g], containerCols)
  {
    var extended := placed + [g];
    assert extended[..|placed|] == placed;
    forall k | 0 <= k < |placed| ensures RecordReconciled(positions, extended[..k], extended[k], containerCols) {
      assert extended[..k] == placed[..k] && extended[k] == placed[k];
    }
  }

  /** What holds after the fragments with a stored position below `storedUpTo` and
      those without one below `newUpTo` have been considered: the records are
      sound, reconciled and in pass order, newPositions is their patch, every
      considered fragment was placed or dropped for want of room at its turn, and
      for quiet stored positions the records are exactly the kept boxes so far and
      nothing was patched. */
  ghost predicate LayoutState(props: seq<Prepared>, positions: map<string, GridPosition>,
                              containerCols: int,
                              gridFragments: seq<GridFragment>, newPositions: map<string, GridPosition>,
                              origin: seq<nat>, dropped: map<nat, nat>, storedCount: nat, storedUpTo: int, newUpTo: int)
  {
    0 <= storedUpTo <= |props| &&
    Placement(props, positions, containerCols, gridFragments, newPositions, origin, storedCount) &&
    OriginBelow(origin, storedCount, storedUpTo, newUpTo) &&
    Dropped(props, positions, containerCols, gridFragments, origin, storedCount, storedUpTo, newUpTo, dropped) &&
    Accounted(props, positions, origin, dropped, storedUpTo, newUpTo) &&
    PremiseKept(props, positions, containerCols, gridFragments, newPositions, storedUpTo)
  }

  /** The records are sound, reconciled and in pass order, and newPositions is their patch. */
  ghost predicate Placement(props: seq<Prepared>, positions: map<string, GridPosition>,
                            containerCols: int,
                            gridFragments: seq<GridFragment>, newPositions: map<string, GridPosition>,
                            origin: seq<nat>, storedCount: nat)
  {
    newPositions == PatchOf(positions, gridFragments, containerCols) &&
    Records(props, gridFragments, origin) &&
    InPassOrder(props, positions, origin, storedCount) &&
    Sound(gridFragments, containerCols) &&
    Reconciled(positions, gridFragments, containerCols)
  }

  /** The records of pass A come from fragments below `storedUpTo`, those of pass B
      from fragments below `newUpTo`. */
  predicate OriginBelow(origin: seq<nat>, storedCount: nat, storedUpTo: int, newUpTo: int)
  {
    (forall k :: 0 <= k < storedCount && k < |origin| ==> origin[k] < storedUpTo) &&
    (forall k :: storedCount <= k < |origin| ==> origin[k] < newUpTo)
  }

  /** For quiet stored positions the records are exactly the boxes kept among the
      fragments below `storedUpTo`, and nothing was patched. */
  ghost predicate PremiseKept(props: seq<Prepared>, positions: map<string, GridPosition>,
                              containerCols: int,
                              gridFragments: seq<GridFragment>, newPositions: map<string, GridPosition>, storedUpTo: int)
    requires 0 <= storedUpTo <= |props|
  {
    Quiet(props, positions, containerCols) ==>
      BoxSet(gridFragments) == Kept(props, positions, containerCols, storedUpTo) && newPositions == map[]
  }

  /** The layout computation. `props` are the prepared fragments, `origin[k]` is the
      input index of output record k, the first `storedCount` records come from
      pass A, and a dropped fragment i was dropped when `turn[i]` records existed,
      which is its place in its own pass. */
  method ComputeLayout(fragments: seq<Fragment>, positions: map<string, GridPosition>,
                       directionMap: map<string, Direction>, cfg: Config)
    returns (gridFragments: seq<GridFragment>, newPositions: map<string, GridPosition>,
             ghost props: seq<Prepared>, ghost origin: seq<nat>, ghost storedCount: nat,
             ghost turn: map<nat, nat>)
    ensures props == PrepareAll(fragments, directionMap, cfg)
    ensures Records(props, gridFragments, origin)
    ensures InPassOrder(props, positions, origin, storedCount)
    ensures Sound(gridFragments, cfg.containerCols)
    ensures Reconciled(positions, gridFragments, cfg.containerCols)
    ensures newPositions == PatchOf(positions, gridFragments, cfg.containerCols)
    ensures forall i :: 0 <= i < |props| && i !in origin ==>
      i in turn && DroppedAt(props, positions, cfg.containerCols, gridFragments, origin, storedCount, i, turn[i])
    ensures forall i :: 0 <= i < |props| && i !in origin ==>
      NoFit(BoxSet(gridFragments), props[i].size, cfg.containerCols)
    ensures Quiet(props, positions, cfg.containerCols) ==>
      newPositions == map[] && BoxSet(gridFragments) == Kept(props, positions, cfg.containerCols, |props|)
  {
    var containerCols := cfg.containerCols;
    var prepared := PrepareAll(fragments, directionMap, cfg);
    props := prepared;
    var grid := new bool[ROWS, COLS]((r, c) => false);
    gridFragments, newPositions, origin := [], map[], [];
    turn := map[];
    EmptyRepresents(grid);
    InitialState(props, positions, containerCols);

    // Pass A: fragments with a stored position, in input order.
    for i := 0 to |prepared|
      invariant Represents(grid, BoxSet(gridFragments))
      invariant LayoutState(props, positions, containerCols, gridFragments, newPositions, origin, turn, |origin|, i, 0)
    {
      gridFragments, newPositions, origin, turn :=
        StoredStep(grid, prepared, positions, containerCols, i, gridFragments, newPositions, origin, turn);
    }
    storedCount := |origin|;

    // Pass B: fragments without a stored position, in input order.
    for i := 0 to |prepared|
      invariant Represents(grid, BoxSet(gridFragments))
      invariant LayoutState(props, positions, containerCols, gridFragments, newPositions, origin, turn,
                            storedCount, |props|, i)
    {
      gridFragments, newPositions, origin, turn :=
        NewStep(grid, prepared, positions, containerCols, storedCount, i, gridFragments, newPositions, origin, turn);
    }

    FinalState(props, positions, containerCols, gridFragments, newPositions, origin, turn, storedCount);
  }

  /** A fresh all-false grid represents no boxes. */
  lemma EmptyRepresents(grid: array2<bool>)
    requires grid.Length0 == ROWS && grid.Length1 == COLS
    requires forall r, c :: 0 <= r < ROWS && 0 <= c < COLS ==> !grid[r, c]
    ensures Represents(grid, BoxSet([]))
  {
  }

  /** Before either pass nothing is placed, patched or dropped. */
  lemma InitialState(props: seq<Prepared>, positions: map<string, GridPosition>,
                     containerCols: int)
    ensures LayoutState(props, positions, containerCols, [], map[], [], map[], 0, 0, 0)
  {
  }

  /** After both passes every fragment without a record was dropped at its turn,
      and fits nowhere among all the records. */
  lemma FinalState(props: seq<Prepared>, positions: map<string, GridPosition>,
                   containerCols: int,
                   gridFragments: seq<GridFragment>, newPositions: map<string, GridPosition>,
                   origin: seq<nat>, dropped: map<nat, nat>, storedCount: nat)
    requires LayoutState(props, positions, containerCols, gridFragments, newPositions, origin, dropped,
                         storedCount, |props|, |props|)
    ensures forall i :: 0 <= i < |props| && i !in origin ==>
      i in dropped && DroppedAt(props, positions, containerCols, gridFragments, origin, storedCount, i, dropped[i])
    ensures forall i :: 0 <= i < |props| && i !in origin ==>
      NoFit(BoxSet(gridFragments), props[i].size, containerCols)
  {
    forall i | 0 <= i < |props| && i !in origin
      ensures i in dropped && NoFit(BoxSet(gridFragments), props[i].size, containerCols)
    {
      assert Wanted(props, positions, |props|, |props|, i);
      BoxSetPrefix(gridFragments, dropped[i]);
      NoFitGrows(BoxSet(gridFragments[..dropped[i]]), BoxSet(gridFragments), props[i].size, containerCols);
    }
  }

  /** The records before a turn are among all the records. */
  lemma BoxSetPrefix(placed: seq<GridFragment>, t: int)
    requires 0 <= t <= |placed|
    ensures BoxSet(placed[..t]) <= BoxSet(placed)
  {
    forall b | b in BoxSet(placed[..t]) ensures b in BoxSet(placed) {
      var k :| 0 <= k < t && b == BoxOf(placed[..t][k]);
      assert placed[..t][k] == placed[k];
    }
  }

  /** One iteration of pass A: fragment i is placed by PlaceStored if it has a stored position. */
  method StoredStep(grid: array2<bool>, props: seq<Prepared>, positions: map<string, GridPosition>,
                    containerCols: int, i: int,
                    placed: seq<GridFragment>, patch: map<string, GridPosition>,
                    ghost origin: seq<nat>, ghost dropped: map<nat, nat>)
    returns (placed': seq<GridFragment>, patch': map<string, GridPosition>,
             ghost origin': seq<nat>, ghost dropped': map<nat, nat>)
    requires 0 <= i < |props| && Represents(grid, BoxSet(placed))
    requires LayoutState(props, positions, containerCols, placed, patch, origin, dropped, |origin|, i, 0)
    modifies grid
    ensures Represents(grid, BoxSet(placed'))
    ensures LayoutState(props, positions, containerCols, placed', patch', origin', dropped', |origin'|, i + 1, 0)
  {
    if props[i].fragment.id in positions {
      placed', patch' := PlaceStored(grid, placed, patch, props[i], positions, containerCols);
      origin', dropped' := StoredConsidered(props, positions, containerCols, i, placed, patch, origin, dropped, placed');
    } else {
      placed', patch', origin', dropped' := placed, patch, origin, dropped;
      Skipped(props, positions, containerCols, i, placed, patch, origin, dropped, |origin|, i, 0, i + 1, 0);
    }
  }

  /** One iteration of pass B: fragment i is placed by PlaceNew if it has no stored position. */
  method NewStep(grid: array2<bool>, props: seq<Prepared>, positions: map<string, GridPosition>,
                 containerCols: int, ghost storedCount: nat, i: int,
                 placed: seq<GridFragment>, patch: map<string, GridPosition>,
                 ghost origin: seq<nat>, ghost dropped: map<nat, nat>)
    returns (placed': seq<GridFragment>, patch': map<string, GridPosition>,
             ghost origin': seq<nat>, ghost dropped': map<nat, nat>)
    requires 0 <= i < |props| && Represents(grid, BoxSet(placed))
    requires LayoutState(props, positions, containerCols, placed, patch, origin, dropped, storedCount, |props|, i)
    modifies grid
    ensures Represents(grid, BoxSet(placed'))
    ensures LayoutState(props, positions, containerCols, placed', patch', origin', dropped', storedCount, |props|, i + 1)
  {
    if props[i].fragment.id !in positions {
      placed', patch' := PlaceNew(grid, placed, patch, props[i], positions, containerCols);
      origin', dropped' := NewConsidered(props, positions, containerCols, storedCount, i, placed, patch, origin, dropped, placed');
    } else {
      placed', patch', origin', dropped' := placed, patch, origin, dropped;
      Skipped(props, positions, containerCols, i, placed, patch, origin, dropped,
              storedCount, |props|, i, |props|, i + 1);
    }
  }

  /** Pass A handled fragment i, which has a stored position, with the outcome PlaceStored promises. */
  lemma StoredConsidered(props: seq<Prepared>, positions: map<string, GridPosition>,
                         containerCols: int, i: int,
                         placed: seq<GridFragment>, patch: map<string, GridPosition>, origin: seq<nat>, dropped: map<nat, nat>,
                         placed': seq<GridFragment>)
    returns (origin': seq<nat>, dropped': map<nat, nat>)
    requires LayoutState(props, positions, containerCols, placed, patch, origin, dropped, |origin|, i, 0)
    requires 0 <= i < |props| && props[i].fragment.id in positions
    requires placed' == placed || (|placed'| == |placed| + 1 && placed'[..|placed|] == placed)
    requires placed' == placed ==> NoFit(BoxSet(placed), props[i].size, containerCols)
    requires placed' != placed ==>
      var g := placed'[|placed|];
      g == Place(props[i], g.position) && Good(g, containerCols) &&
      Clear(BoxSet(placed), BoxOf(g)) && RecordReconciled(positions, placed, g, containerCols)
    requires KeepableAt(positions[props[i].fragment.id], props[i].size, BoxSet(placed), containerCols) ==>
      placed' != placed
    ensures LayoutState(props, positions, containerCols, placed', PatchOf(positions, placed', containerCols),
                        origin', dropped', |origin'|, i + 1, 0)
  {
    if placed' != placed {
      AppendKeepsRecords(placed, placed');
      StoredPushed(props, positions, containerCols, i, placed, patch, origin, dropped, placed'[|placed|]);
      origin', dropped' := origin + [i], dropped;
    } else {
      StoredDropped(props, positions, containerCols, i, placed, patch, origin, dropped);
      origin', dropped' := origin, dropped[i := |placed|];
    }
  }

  /** Pass B handled fragment i, which has no stored position, with the outcome PlaceNew promises. */
  lemma NewConsidered(props: seq<Prepared>, positions: map<string, GridPosition>,
                      containerCols: int, storedCount: nat, i: int,
                      placed: seq<GridFragment>, patch: map<string, GridPosition>, origin: seq<nat>, dropped: map<nat, nat>,
                      placed': seq<GridFragment>)
    returns (origin': seq<nat>, dropped': map<nat, nat>)
    requires LayoutState(props, positions, containerCols, placed, patch, origin, dropped, storedCount, |props|, i)
    requires 0 <= i < |props| && props[i].fragment.id !in positions
    requires placed' == placed || (|placed'| == |placed| + 1 && placed'[..|placed|] == placed)
    requires placed' == placed ==> NoFit(BoxSet(placed), props[i].size, containerCols)
    requires placed' != placed ==>
      var g := placed'[|placed|];
      g == Place(props[i], g.position) && Good(g, containerCols) &&
      Clear(BoxSet(placed), BoxOf(g)) && RecordReconciled(positions, placed, g, containerCols)
    ensures LayoutState(props, positions, containerCols, placed', PatchOf(positions, placed', containerCols),
                        origin', dropped', storedCount, |props|, i + 1)
  {
    if placed' != placed {
      AppendKeepsRecords(placed, placed');
      NewPushed(props, positions, containerCols, storedCount, i, placed, patch, origin, dropped, placed'[|placed|]);
      origin', dropped' := origin + [i], dropped;
    } else {
      NewDropped(props, positions, containerCols, storedCount, i, placed, patch, origin, dropped);
      origin', dropped' := origin, dropped[i := |placed|];
    }
  }

  /** A fragment the current pass does not handle leaves the state as it is. */
  lemma Skipped(props: seq<Prepared>, positions: map<string, GridPosition>,
                containerCols: int, i: int,
                placed: seq<GridFragment>, patch: map<string, GridPosition>, origin: seq<nat>, dropped: map<nat, nat>,
                storedCount: nat, storedUpTo: int, newUpTo: int, storedUpTo': int, newUpTo': int)
    requires LayoutState(props, positions, containerCols, placed, patch, origin, dropped, storedCount, storedUpTo, newUpTo)
    requires 0 <= i < |props|
    requires (storedUpTo' == storedUpTo + 1 && storedUpTo == i && newUpTo' == newUpTo && props[i].fragment.id !in positions) ||
             (newUpTo' == newUpTo + 1 && newUpTo == i && storedUpTo' == storedUpTo && props[i].fragment.id in positions)
    ensures LayoutState(props, positions, containerCols, placed, patch, origin, dropped, storedCount, storedUpTo', newUpTo')
  {
    if storedUpTo' == storedUpTo + 1 {
      KeptStep(props, positions, containerCols, i);
    }
    AccountedStep(props, positions, origin, dropped, storedUpTo, newUpTo, origin, dropped, storedUpTo', newUpTo', i);
  }

  /** Pass A pushed record g for fragment i. */
  lemma StoredPushed(props: seq<Prepared>, positions: map<string, GridPosition>,
                     containerCols: int, i: int,
                     placed: seq<GridFragment>, patch: map<string, GridPosition>, origin: seq<nat>, dropped: map<nat, nat>,
                     g: GridFragment)
    requires LayoutState(props, positions, containerCols, placed, patch, origin, dropped, |origin|, i, 0)
    requires 0 <= i < |props| && props[i].fragment.id in positions
    requires g == Place(props[i], g.position) && Good(g, containerCols)
    requires Clear(BoxSet(placed), BoxOf(g)) && RecordReconciled(positions, placed, g, containerCols)
    ensures LayoutState(props, positions, containerCols, placed + [g], PatchOf(positions, placed + [g], containerCols),
                        origin + [i], dropped, |origin| + 1, i + 1, 0)
  {
    BoxSetAppend(placed, g);
    PatchOfAppend(positions, placed, g, containerCols);
    PlacementPush(props, positions, containerCols, placed, patch, origin, |origin|, i, 0, i, g);
    StoredPushKeepsDropped(props, positions, containerCols, placed, g, origin, i, dropped);
    AccountedStep(props, positions, origin, dropped, i, 0, origin + [i], dropped, i + 1, 0, i);
    PremiseAfterStoredPush(props, positions, containerCols, i, placed, g);
  }

  /** Pushing the record of fragment i keeps Records. */
  lemma RecordsAppend(props: seq<Prepared>,
                      placed: seq<GridFragment>, origin: seq<nat>, g: GridFragment, i: nat)
    requires Records(props, placed, origin)
    requires i < |props| && g == Place(props[i], g.position)
    ensures Records(props, placed + [g], origin + [i])
  {
    var placed', origin' := placed + [g], origin + [i];
    forall k | 0 <= k < |placed'|
      ensures origin'[k] < |props| && placed'[k] == Place(props[origin'[k]], placed'[k].position)
    {
      if k < |placed| {
        assert placed'[k] == placed[k] && origin'[k] == origin[k];
      }
    }
  }

  /** Pushing fragment i keeps the pass order: in pass A (storedCount == |origin|,
      storedUpTo == i) it has a stored position, in pass B (newUpTo == i) it has none. */
  lemma OrderAppend(props: seq<Prepared>, positions: map<string, GridPosition>,
                    origin: seq<nat>, storedCount: nat, storedUpTo: int, newUpTo: int, i: nat)
    requires InPassOrder(props, positions, origin, storedCount) && i < |props|
    requires OriginBelow(origin, storedCount, storedUpTo, newUpTo)
    requires (storedCount == |origin| && storedUpTo == i && props[i].fragment.id in positions) ||
             (newUpTo == i && props[i].fragment.id !in positions)
    ensures props[i].fragment.id in positions ==>
      InPassOrder(props, positions, origin + [i], storedCount + 1) &&
      OriginBelow(origin + [i], storedCount + 1, i + 1, newUpTo)
    ensures props[i].fragment.id !in positions ==>
      InPassOrder(props, positions, origin + [i], storedCount) &&
      OriginBelow(origin + [i], storedCount, storedUpTo, i + 1)
  {
  }

  /** Pushing record g for fragment i keeps the placement facts, in either pass. */
  lemma PlacementPush(props: seq<Prepared>, positions: map<string, GridPosition>,
                      containerCols: int,
                      placed: seq<GridFragment>, patch: map<string, GridPosition>, origin: seq<nat>,
                      storedCount: nat, storedUpTo: int, newUpTo: int, i: nat, g: GridFragment)
    requires Placement(props, positions, containerCols, placed, patch, origin, storedCount)
    requires OriginBelow(origin, storedCount, storedUpTo, newUpTo)
    requires i < |props|
    requires (storedCount == |origin| && storedUpTo == i && props[i].fragment.id in positions) ||
             (newUpTo == i && props[i].fragment.id !in positions)
    requires g == Place(props[i], g.position) && Good(g, containerCols)
    requires Clear(BoxSet(placed), BoxOf(g)) && RecordReconciled(positions, placed, g, containerCols)
    ensures var stored := props[i].fragment.id in positions;
      var storedCount' := if stored then storedCount + 1 else storedCount;
      Placement(props, positions, containerCols, placed + [g], PatchOf(positions, placed + [g], containerCols),
                origin + [i], storedCount') &&
      OriginBelow(origin + [i], storedCount', if stored then i + 1 else storedUpTo, if stored then newUpTo else i + 1)
  {
    SoundAppend(placed, g, containerCols);
    ReconciledAppend(positions, placed, g, containerCols);
    RecordsAppend(props, placed, origin, g, i);
    OrderAppend(props, positions, origin, storedCount, storedUpTo, newUpTo, i);
  }

  /** For quiet stored positions, the record pass A pushes for fragment i is its
      kept box, unpatched: a fragment that fits nowhere cannot be pushed. */
  lemma PremiseAfterStoredPush(props: seq<Prepared>, positions: map<string, GridPosition>,
                               containerCols: int, i: int,
                               placed: seq<GridFragment>, g: GridFragment)
    requires 0 <= i < |props| && props[i].fragment.id in positions
    requires g == Place(props[i], g.position) && Good(g, containerCols)
    requires Clear(BoxSet(placed), BoxOf(g)) && RecordReconciled(positions, placed, g, containerCols)
    ensures Quiet(props, positions, containerCols) &&
            BoxSet(placed) == Kept(props, positions, containerCols, i) ==>
      BoxSet(placed) + {BoxOf(g)} == Kept(props, positions, containerCols, i + 1) &&
      !Patched(positions, g, containerCols)
  {
    KeptStep(props, positions, containerCols, i);
    if Patched(positions, g, containerCols) {
      FirstFitIsFit(BoxSet(placed), g.size, containerCols, g.position);
    }
  }

  /** Pass A found no place for fragment i: it is dropped at turn |placed|. */
  lemma StoredDropped(props: seq<Prepared>, positions: map<string, GridPosition>,
                      containerCols: int, i: int,
                      placed: seq<GridFragment>, patch: map<string, GridPosition>, origin: seq<nat>, dropped: map<nat, nat>)
    requires LayoutState(props, positions, containerCols, placed, patch, origin, dropped, |origin|, i, 0)
    requires 0 <= i < |props| && props[i].fragment.id in positions
    requires NoFit(BoxSet(placed), props[i].size, containerCols)
    requires !KeepableAt(positions[props[i].fragment.id], props[i].size, BoxSet(placed), containerCols)
    ensures LayoutState(props, positions, containerCols, placed, patch, origin, dropped[i := |placed|], |origin|, i + 1, 0)
  {
    KeptStep(props, positions, containerCols, i);
    assert placed[..|placed|] == placed;
    AccountedStep(props, positions, origin, dropped, i, 0, origin, dropped[i := |placed|], i + 1, 0, i);
  }

  /** Pass B pushed record g for fragment i. */
  lemma NewPushed(props: seq<Prepared>, positions: map<string, GridPosition>,
                  containerCols: int, storedCount: nat, i: int,
                  placed: seq<GridFragment>, patch: map<string, GridPosition>, origin: seq<nat>, dropped: map<nat, nat>,
                  g: GridFragment)
    requires LayoutState(props, positions, containerCols, placed, patch, origin, dropped, storedCount, |props|, i)
    requires 0 <= i < |props| && props[i].fragment.id !in positions
    requires g == Place(props[i], g.position) && Good(g, containerCols)
    requires Clear(BoxSet(placed), BoxOf(g)) && RecordReconciled(positions, placed, g, containerCols)
    ensures LayoutState(props, positions, containerCols, placed + [g], PatchOf(positions, placed + [g], containerCols),
                        origin + [i], dropped, storedCount, |props|, i + 1)
  {
    BoxSetAppend(placed, g);
    PlacementPush(props, positions, containerCols, placed, patch, origin, storedCount, |props|, i, i, g);
    NewPushKeepsDropped(props, positions, containerCols, storedCount, placed, g, origin, i, dropped);
    AccountedStep(props, positions, origin, dropped, |props|, i, origin + [i], dropped, |props|, i + 1, i);
    PremiseBlocksNew(props, positions, containerCols, i, placed, g);
  }

  /** For quiet stored positions no fragment without a stored position fits among
      the kept boxes, so pass B cannot push a record. */
  lemma PremiseBlocksNew(props: seq<Prepared>, positions: map<string, GridPosition>,
                         containerCols: int, i: int,
                         placed: seq<GridFragment>, g: GridFragment)
    requires 0 <= i < |props| && props[i].fragment.id !in positions
    requires g == Place(props[i], g.position)
    requires RecordReconciled(positions, placed, g, containerCols)
    ensures !(Quiet(props, positions, containerCols) &&
              BoxSet(placed) == Kept(props, positions, containerCols, |props|))
  {
    FirstFitIsFit(BoxSet(placed), g.size, containerCols, g.position);
  }

  /** Pass B found no place for fragment i: it is dropped at turn |placed|. */
  lemma NewDropped(props: seq<Prepared>, positions: map<string, GridPosition>,
                   containerCols: int, storedCount: nat, i: int,
                   placed: seq<GridFragment>, patch: map<string, GridPosition>, origin: seq<nat>, dropped: map<nat, nat>)
    requires LayoutState(props, positions, containerCols, placed, patch, origin, dropped, storedCount, |props|, i)
    requires 0 <= i < |props| && props[i].fragment.id !in positions
    requires NoFit(BoxSet(placed), props[i].size, containerCols)
    ensures LayoutState(props, positions, containerCols, placed, patch, origin, dropped[i := |placed|], storedCount, |props|, i + 1)
  {
    assert placed[..|placed|] == placed;
    AccountedStep(props, positions, origin, dropped, |props|, i, origin, dropped[i := |placed|], |props|, i + 1, i);
  }

  /** Records already pushed are unchanged by a push, and so are the prefixes they were checked against. */
  lemma AppendKeepsRecords(before: seq<GridFragment>, after: seq<GridFragment>)
    requires |after| == |before| + 1 && after[..|before|] == before
    ensures after == before + [after[|before|]]
    ensures BoxSet(after) == BoxSet(before) + {BoxOf(after[|before|])}
  {
    assert after == before + [after[|before|]];
    BoxSetAppend(before, after[|before|]);
  }

  /** Fragment j was dropped when the first t records had been pushed: it fit
      nowhere among them, and its turn is its place in its own pass. A fragment
      with a stored position, whose position could not be kept there, comes after
      exactly the pass A records of fragments before it; one without comes after
      the pass A records and exactly the pass B records of fragments before it. */
  ghost predicate DroppedAt(props: seq<Prepared>, positions: map<string, GridPosition>, containerCols: int,
                            gridFragments: seq<GridFragment>, origin: seq<nat>, storedCount: nat, j: nat, t: nat)
  {
    j < |props| && t <= |gridFragments| && t <= |origin| && storedCount <= |origin| &&
    NoFit(BoxSet(gridFragments[..t]), props[j].size, containerCols) &&
    if props[j].fragment.id in positions then
      !KeepableAt(positions[props[j].fragment.id], props[j].size, BoxSet(gridFragments[..t]), containerCols) &&
      t <= storedCount && forall k :: 0 <= k < storedCount ==> (k < t <==> origin[k] < j)
    else
      storedCount <= t && forall k :: storedCount <= k < |origin| ==> (k < t <==> origin[k] < j)
  }

  /** Every fragment in `dropped` was considered by its pass and was dropped at
      the turn recorded for it. */
  ghost predicate Dropped(props: seq<Prepared>, positions: map<string, GridPosition>, containerCols: int,
                          gridFragments: seq<GridFragment>, origin: seq<nat>, storedCount: nat,
                          storedUpTo: int, newUpTo: int, dropped: map<nat, nat>)
  {
    forall j :: j in dropped ==>
      Wanted(props, positions, storedUpTo, newUpTo, j) &&
      DroppedAt(props, positions, containerCols, gridFragments, origin, storedCount, j, dropped[j])
  }

  /** A pass A push, by fragment i after every dropped one, leaves each dropped
      fragment's turn where it was. */
  lemma StoredPushKeepsDropped(props: seq<Prepared>, positions: map<string, GridPosition>, containerCols: int,
                               placed: seq<GridFragment>, g: GridFragment, origin: seq<nat>, i: nat,
                               dropped: map<nat, nat>)
    requires |placed| == |origin|
    requires Dropped(props, positions, containerCols, placed, origin, |origin|, i, 0, dropped)
    ensures Dropped(props, positions, containerCols, placed + [g], origin + [i], |origin| + 1, i + 1, 0, dropped)
  {
    forall j | j in dropped
      ensures DroppedAt(props, positions, containerCols, placed + [g], origin + [i], |origin| + 1, j, dropped[j])
    {
      var t := dropped[j];
      assert (placed + [g])[..t] == placed[..t];
      assert forall k :: 0 <= k < |origin| ==> (origin + [i])[k] == origin[k];
    }
  }

  /** A pass B push, by fragment i after every dropped one, leaves each dropped
      fragment's turn where it was. */
  lemma NewPushKeepsDropped(props: seq<Prepared>, positions: map<string, GridPosition>, containerCols: int,
                            storedCount: nat, placed: seq<GridFragment>, g: GridFragment, origin: seq<nat>, i: nat,
                            dropped: map<nat, nat>)
    requires |placed| == |origin|
    requires Dropped(props, positions, containerCols, placed, origin, storedCount, |props|, i, dropped)
    ensures Dropped(props, positions, containerCols, placed + [g], origin + [i], storedCount, |props|, i + 1, dropped)
  {
    forall j | j in dropped
      ensures DroppedAt(props, positions, containerCols, placed + [g], origin + [i], storedCount, j, dropped[j])
    {
      var t := dropped[j];
      assert (placed + [g])[..t] == placed[..t];
      assert forall k :: 0 <= k < |origin| ==> (origin + [i])[k] == origin[k];
    }
  }

  /** Fragment j is among the stored ones below `storedUpTo` or the new ones below `newUpTo`. */
  predicate Wanted(props: seq<Prepared>, positions: map<string, GridPosition>, storedUpTo: int, newUpTo: int, j: int)
  {
    0 <= j < |props| && if props[j].fragment.id in positions then j < storedUpTo else j < newUpTo
  }

  /** Every wanted fragment has been either placed (it is in `origin`) or dropped. */
  ghost predicate Accounted(props: seq<Prepared>, positions: map<string, GridPosition>,
                            origin: seq<nat>, dropped: map<nat, nat>, storedUpTo: int, newUpTo: int)
  {
    forall j :: Wanted(props, positions, storedUpTo, newUpTo, j) ==> j in origin || j in dropped
  }

  /** One step of either pass: fragment i is considered and is placed, dropped or skipped. */
  lemma AccountedStep(props: seq<Prepared>, positions: map<string, GridPosition>,
                      origin: seq<nat>, dropped: map<nat, nat>, storedUpTo: int, newUpTo: int,
                      origin': seq<nat>, dropped': map<nat, nat>, storedUpTo': int, newUpTo': int, i: int)
    requires Accounted(props, positions, origin, dropped, storedUpTo, newUpTo)
    requires origin' == origin || origin' == origin + [i]
    requires dropped'.Keys == dropped.Keys || dropped'.Keys == dropped.Keys + {i}
    requires (storedUpTo' == storedUpTo + 1 && storedUpTo == i && newUpTo' == newUpTo) ||
             (newUpTo' == newUpTo + 1 && newUpTo == i && storedUpTo' == storedUpTo)
    requires Wanted(props, positions, storedUpTo', newUpTo', i) ==> i in origin' || i in dropped'
    ensures Accounted(props, positions, origin', dropped', storedUpTo', newUpTo')
  {
    forall j | Wanted(props, positions, storedUpTo', newUpTo', j)
      ensures j in origin' || j in dropped'
    {
      if j != i {
        assert Wanted(props, positions, storedUpTo, newUpTo, j);
        if j in origin {
          assert origin'[|origin'| - 1] == i || origin' == origin;
          var k :| 0 <= k < |origin| && origin[k] == j;
          assert origin'[k] == j;
        }
      }
    }
  }
}

=== FILE: occupancy_grid.dfy ===
/** The occupancy grid: a rows x cols boolean matrix. A card at `position` with
    `size` claims its own cells plus a one-cell halo to the right, below and at
    the bottom-right corner, i.e. the closed rectangle
    rows position.row .. position.row + height, cols position.col .. position.col + width. */
module OccupancyGrid {
  import opened Geometry

  /** Cell (r, c) lies in the closed rectangle (footprint plus halo) of a card. */
  predicate InBox(position: GridPosition, size: FragmentSize, r: int, c: int)
  {
    position.row <= r <= position.row + size.height &&
    position.col <= c <= position.col + size.width
  }

  /** The bound test of isGridOccupied passes: it is strict, so the halo row and
      column are inside the grid too. */
  predicate InBounds(rows: int, cols: int, position: GridPosition, size: FragmentSize)
  {
    0 <= position.row && 0 <= position.col &&
    position.row + size.height < rows && position.col + size.width < cols
  }

  /** The specification of isGridOccupied: out of bounds, or some cell of the
      closed rectangle is already taken. */
  ghost predicate Occupied(grid: array2<bool>, position: GridPosition, size: FragmentSize)
    reads grid
  {
    !InBounds(grid.Length0, grid.Length1, position, size) ||
    exists r, c :: 0 <= r < grid.Length0 && 0 <= c < grid.Length1 && InBox(position, size, r, c) && grid[r, c]
  }

  /** isGridOccupied: bound check, then the footprint, the right halo column,
      the bottom halo row and the corner, returning at the first taken cell. */
  method IsGridOccupied(grid: array2<bool>, position: GridPosition, size: FragmentSize) returns (occupied: bool)
    ensures occupied == Occupied(grid, position, size)
  {
    var endRow := position.row + size.height;
    var endCol := position.col + size.width;
    if position.row < 0 || position.col < 0 || endRow >= grid.Length0 || endCol >= grid.Length1 {
      return true;
    }

    var r := position.row;
    while r < endRow
      invariant position.row <= r <= endRow
      invariant forall i, j :: position.row <= i < r && position.col <= j < endCol ==> !grid[i, j]
    {
      var c := position.col;
      while c < endCol
        invariant position.col <= c <= endCol
        invariant forall j :: position.col <= j < c ==> !grid[r, j]
      {
        if grid[r, c] {
          assert InBox(position, size, r, c);
          return true;
        }
        c := c + 1;
      }
      r := r + 1;
    }

    if endCol < grid.Length1 {
      r := position.row;
      while r < endRow
        invariant position.row <= r <= endRow
        invariant forall i :: position.row <= i < r ==> !grid[i, endCol]
      {
        if grid[r, endCol] {
          assert InBox(position, size, r, endCol);
          return true;
        }
        r := r + 1;
      }
    }

    if endRow < grid.Length0 {
      var c := position.col;
      while c < endCol
        invariant position.col <= c <= endCol
        invariant forall j :: position.col <= j < c ==> !grid[endRow, j]
      {
        if grid[endRow, c] {
          assert InBox(position, size, endRow, c);
          return true;
        }
        c := c + 1;
      }
    }

    if endRow < grid.Length0 && endCol < grid.Length1 {
      if grid[endRow, endCol] {
        assert InBox(position, size, endRow, endCol);
        return true;
      }
    }
    return false;
  }

  /** markGridAsOccupied: sets exactly the in-grid cells of the closed rectangle
      and leaves every other cell as it was. A write at a negative column index
      names no cell and changes nothing. The caller must not put the halo row
      above the grid while the card reaches into the grid's columns: the source
      would then index a row that does not exist. */
  method MarkGridAsOccupied(grid: array2<bool>, position: GridPosition, size: FragmentSize)
    requires position.row + size.height >= 0 || position.col >= grid.Length1
    modifies grid
    ensures forall r, c :: 0 <= r < grid.Length0 && 0 <= c < grid.Length1 ==>
      grid[r, c] == (old(grid[r, c]) || InBox(position, size, r, c))
    ensures InBounds(grid.Length0, grid.Length1, position, size) ==> Occupied(grid, position, size)
  {
    var endRow := position.row + size.height;
    var endCol := position.col + size.width;

    for r := position.row to endRow
      invariant forall i, j :: 0 <= i < grid.Length0 && 0 <= j < grid.Length1 ==>
        grid[i, j] == (old(grid[i, j]) || (position.row <= i < r && position.col <= j < endCol))
    {
      for c := position.col to endCol
        invariant forall i, j :: 0 <= i < grid.Length0 && 0 <= j < grid.Length1 ==>
          grid[i, j] == (old(grid[i, j]) || (position.row <= i < r && position.col <= j < endCol) ||
                         (i == r && position.col <= j < c))
      {
        if r >= 0 && c >= 0 && r < grid.Length0 && c < grid.Length1 {
          grid[r, c] := true;
        }
      }
    }

    if endCol < grid.Length1 {
      for r := position.row to endRow
        invariant forall i, j :: 0 <= i < grid.Length0 && 0 <= j < grid.Length1 ==>
          grid[i, j] == (old(grid[i, j]) || (position.row <= i < endRow && position.col <= j < endCol) ||
                         (position.row <= i < r && j == endCol))
      {
        if r >= 0 && r < grid.Length0 && endCol >= 0 {
          grid[r, endCol] := true;
        }
      }
    }

    if endRow < grid.Length0 {
      for c := position.col to endCol
        invariant forall i, j :: 0 <= i < grid.Length0 && 0 <= j < grid.Length1 ==>
          grid[i, j] == (old(grid[i, j]) || (position.row <= i < endRow && position.col <= j <= endCol) ||
                         (i == endRow && position.col <= j < c))
      {
        if c >= 0 && c < grid.Length1 {
          grid[endRow, c] := true;
        }
      }
    }

    if endRow < grid.Length0 && endCol < grid.Length1 && endCol >= 0 {
      grid[endRow, endCol] := true;
    }

    if InBounds(grid.Length0, grid.Length1, position, size) {
      assert InBox(position, size, position.row, position.col) && grid[position.row, position.col];
    }
  }
}

=== FILE: placement_search.dfy ===
/** First-fit placement search over the occupancy grid, in three passes that
    never visit the origin: rows 1.. by columns 1.., then row 0, then column 0. */
module PlacementSearch {
  import opened Geometry
  import opened OccupancyGrid

  /** min(grid columns, CONTAINER_COLS): the columns the search may start at. */
  function MaxCols(cols: int, containerCols: int): int
  {
    Min(cols, containerCols)
  }

  /** (r, c) is visited by one of the three passes. The origin never is. */
  predicate Candidate(rows: int, maxCols: int, r: int, c: int)
  {
    (1 <= r < rows && 1 <= c < maxCols) ||
    (r == 0 && 1 <= c < maxCols) ||
    (c == 0 && 1 <= r < rows)
  }

  /** Which of the three passes visits (r, c). */
  function Pass(r: int, c: int): int
  {
    if r >= 1 && c >= 1 then 1 else if r == 0 then 2 else 3
  }

  /** (r1, c1) is visited before (r2, c2): by pass, then in row-major order. */
  predicate Earlier(r1: int, c1: int, r2: int, c2: int)
  {
    Pass(r1, c1) < Pass(r2, c2) ||
    (Pass(r1, c1) == Pass(r2, c2) && (r1 < r2 || (r1 == r2 && c1 < c2)))
  }

  /** The acceptance test of every pass: the card ends inside the container and its
      closed rectangle is free. In the column-0 pass the source tests
      `width <= CONTAINER_COLS`, which is this test with c = 0. */
  ghost predicate Fits(grid: array2<bool>, size: FragmentSize, containerCols: int, r: int, c: int)
    reads grid
  {
    c + size.width <= containerCols && !Occupied(grid, GridPosition(r, c), size)
  }

  /** findPlacementPosition: the first candidate, in pass order, that fits, or None
      when no candidate fits. It only reads the grid. */
  method FindPlacementPosition(grid: array2<bool>, size: FragmentSize, containerCols: int)
    returns (found: Option<GridPosition>)
    ensures found.Some? ==>
      var p := found.value;
      Candidate(grid.Length0, MaxCols(grid.Length1, containerCols), p.row, p.col) &&
      Fits(grid, size, containerCols, p.row, p.col) &&
      forall r, c :: Candidate(grid.Length0, MaxCols(grid.Length1, containerCols), r, c) && Earlier(r, c, p.row, p.col) ==>
        !Fits(grid, size, containerCols, r, c)
    ensures found.None? ==>
      forall r, c :: Candidate(grid.Length0, MaxCols(grid.Length1, containerCols), r, c) ==>
        !Fits(grid, size, containerCols, r, c)
    ensures found.Some? ==>
      found.value != GridPosition(0, 0) && 0 <= found.value.row && 0 <= found.value.col &&
      found.value.col + size.width <= containerCols && !Occupied(grid, found.value, size)
  {
    var rows := grid.Length0;
    var maxCols := MaxCols(grid.Length1, containerCols);

    // Pass 1: rows 1.., columns 1..maxCols-1.
    var r := 1;
    while r < rows
      invariant 1 <= r <= Max(rows, 1)
      invariant forall i, j :: 1 <= i < r && 1 <= j < maxCols ==> !Fits(grid, size, containerCols, i, j)
    {
      var c := 1;
      while c < maxCols
        invariant 1 <= c <= Max(maxCols, 1)
        invariant forall j :: 1 <= j < c ==> !Fits(grid, size, containerCols, r, j)
      {
        if c + size.width <= containerCols {
          var occupied := IsGridOccupied(grid, GridPosition(r, c), size);
          if !occupied {
            return Some(GridPosition(r, c));
          }
        }
        c := c + 1;
      }
      r := r + 1;
    }

    // Pass 2: row 0, columns 1..maxCols-1.
    var c := 1;
    while c < maxCols
      invariant 1 <= c <= Max(maxCols, 1)
      invariant forall i, j :: 1 <= i < rows && 1 <= j < maxCols ==> !Fits(grid, size, containerCols, i, j)
      invariant forall j :: 1 <= j < c ==> !Fits(grid, size, containerCols, 0, j)
    {
      if c + size.width <= containerCols {
        var occupied := IsGridOccupied(grid, GridPosition(0, c), size);
        if !occupied {
          return Some(GridPosition(0, c));
        }
      }
      c := c + 1;
    }

    // Pass 3: column 0, rows 1..
    r := 1;
    while r < rows
      invariant 1 <= r <= Max(rows, 1)
      invariant forall i, j :: 1 <= i < rows && 1 <= j < maxCols ==> !Fits(grid, size, containerCols, i, j)
      invariant forall j :: 1 <= j < maxCols ==> !Fits(grid, size, containerCols, 0, j)
      invariant forall i :: 1 <= i < r ==> !Fits(grid, size, containerCols, i, 0)
    {
      if size.width <= containerCols {
        var occupied := IsGridOccupied(grid, GridPosition(r, 0), size);
        if !occupied {
          return Some(GridPosition(r, 0));
        }
      }
      r := r + 1;
    }

    return None;
  }
}

=== FILE: size_estimator.dfy ===
/** Content-driven card size estimation.

    The source measures in floating point with a font factor; the font size is
    always the base size, so the factor is 1 and every decimal constant is an
    exact number of hundredths of a grid cell. Lengths here are the UTF-16
    lengths of the already truncated texts. */
module SizeEstimator {
  import opened Geometry

  const MIN_CARD_WIDTH := 5
  const MAX_CARD_WIDTH := 15
  const MIN_CARD_HEIGHT := 4
  const MAX_CARD_HEIGHT := 12

  const BASE_FONT_SIZE := 14
  /** max(10, ceil(15 / fontFactor)) with a font factor of 1. */
  const CHARS_PER_LINE := 15
  /** min(charsPerLine, 20): the characters assumed on an average line or column. */
  const AVG_CHARS := 15
  /** Budget of text lines (or columns) shared by content and note. */
  const MAX_TEXT_LINES := 8
  const MAX_TAG_LINES := 2
  const MAX_TAG_COLUMNS := 3
  const TAGS_PER_LINE := 4

  // Decimal constants of the formulas, in hundredths of a cell.
  const LINE_HEIGHT := 140         // 1.4
  const NOTE_LINE_HEIGHT := 112    // 1.4 * 0.8
  const COLUMN_WIDTH := 160        // 1.6
  const NOTE_COLUMN_WIDTH := 128   // 1.6 * 0.8
  const TAG_LINE := 150            // 1.5 per tag line or column
  const TAG_GAP := 150             // 1.5 extra spacing when there are tags
  const PADDING_ACROSS_TEXT := 350 // 3.5
  const PADDING_ALONG_TEXT := 200  // 2
  const CHAR_WIDTH := 60           // 0.6
  const CHAR_HEIGHT := 110         // 1.1

  /** The relevance-driven font size hook; the current policy ignores the score. */
  function CalculateFontSize(relevanceScore: real): (fontSize: int)
    ensures fontSize == BASE_FONT_SIZE
  {
    14
  }

  /** ceil(len / CHARS_PER_LINE): the lines (or columns) that len characters fill. */
  function TextLines(len: nat): (lines: nat)
    ensures lines == 0 <==> len == 0
    ensures len <= lines * CHARS_PER_LINE < len + CHARS_PER_LINE
  {
    (len + CHARS_PER_LINE - 1) / CHARS_PER_LINE
  }

  /** Lines of content: the lines its text needs, but at least one, so empty
      content still takes a line. */
  function ContentLines(contentLength: nat): (lines: nat)
    ensures lines >= 1
    ensures contentLength == 0 ==> lines == 1
    ensures contentLength > 0 ==> contentLength <= lines * CHARS_PER_LINE < contentLength + CHARS_PER_LINE
  {
    var n := TextLines(contentLength);
    if n == 0 then 1 else n
  }

  /** min(2, ceil(tagCount / 4)): horizontal cards show at most two tag lines. */
  function TagLines(tagCount: nat): (lines: nat)
    ensures lines <= MAX_TAG_LINES
    ensures lines == 0 <==> tagCount == 0
    ensures tagCount <= TAGS_PER_LINE * MAX_TAG_LINES ==> tagCount <= lines * TAGS_PER_LINE < tagCount + TAGS_PER_LINE
    ensures tagCount >= TAGS_PER_LINE * MAX_TAG_LINES ==> lines == MAX_TAG_LINES
  {
    Min(MAX_TAG_LINES, (tagCount + TAGS_PER_LINE - 1) / TAGS_PER_LINE)
  }

  /** min(tagCount, 3): vertical cards show at most three tag columns. */
  function TagColumns(tagCount: nat): (columns: nat)
    ensures columns <= MAX_TAG_COLUMNS
    ensures columns == 0 <==> tagCount == 0
    ensures tagCount <= MAX_TAG_COLUMNS ==> columns == tagCount
    ensures tagCount >= MAX_TAG_COLUMNS ==> columns == MAX_TAG_COLUMNS
  {
    Min(tagCount, MAX_TAG_COLUMNS)
  }

  /** Content lines are capped at the budget first; note lines get what is left. */
  function CapLines(contentLines: nat, noteLines: nat): (capped: (nat, nat))
    ensures capped.0 + capped.1 <= MAX_TEXT_LINES
    ensures capped.0 <= contentLines && capped.1 <= noteLines
    ensures contentLines + noteLines <= MAX_TEXT_LINES ==> capped == (contentLines, noteLines)
    ensures contentLines + noteLines >= MAX_TEXT_LINES ==> capped.0 + capped.1 == MAX_TEXT_LINES
    ensures contentLines <= MAX_TEXT_LINES ==> capped.0 == contentLines
    ensures contentLines >= MAX_TEXT_LINES ==> capped == (MAX_TEXT_LINES, 0)
  {
    var finalContent := Min(contentLines, MAX_TEXT_LINES);
    var finalNote := Min(noteLines, Max(0, MAX_TEXT_LINES - finalContent));
    (finalContent, finalNote)
  }

  /** Space taken by n tag lines (or columns) plus their spacing, in hundredths. */
  function TagExtent(n: nat): nat
  {
    if n > 0 then n * TAG_LINE + TAG_GAP else 0
  }

  /** Math.round(x / 100) for x >= 0: the nearest integer, halves rounded up. */
  function RoundHundredths(x: nat): (n: nat)
    ensures 100 * n <= x + 50 < 100 * n + 100
  {
    (x + 50) / 100
  }

  function Clamp(v: int, lo: int, hi: int): (r: int)
    requires lo <= hi
    ensures lo <= r <= hi
    ensures lo <= v <= hi ==> r == v
    ensures v < lo ==> r == lo
    ensures v > hi ==> r == hi
  {
    Max(lo, Min(hi, v))
  }

  /** Extent across the text lines, in hundredths: height for horizontal cards,
      width for vertical ones. The two orientations use different constants. */
  function TextExtent(contentLength: nat, noteLength: nat, tagCount: nat, direction: Direction): nat
  {
    var capped := CapLines(ContentLines(contentLength), TextLines(noteLength));
    match direction
    case Horizontal =>
      capped.0 * LINE_HEIGHT + capped.1 * NOTE_LINE_HEIGHT + TagExtent(TagLines(tagCount)) + PADDING_ACROSS_TEXT
    case Vertical =>
      capped.0 * COLUMN_WIDTH + capped.1 * NOTE_COLUMN_WIDTH + TagExtent(TagColumns(tagCount)) + PADDING_ACROSS_TEXT
  }

  /** Extent along the text lines, in hundredths: width for horizontal cards,
      height for vertical ones. */
  function LineExtent(direction: Direction): nat
  {
    match direction
    case Horizontal => AVG_CHARS * CHAR_WIDTH + PADDING_ALONG_TEXT
    case Vertical => AVG_CHARS * CHAR_HEIGHT + PADDING_ALONG_TEXT
  }

  /** The size for the given truncated text lengths and tag count, clamped on each axis. */
  function SizeFromCounts(contentLength: nat, noteLength: nat, tagCount: nat, direction: Direction): (size: FragmentSize)
    ensures MIN_CARD_WIDTH <= size.width <= MAX_CARD_WIDTH
    ensures MIN_CARD_HEIGHT <= size.height <= MAX_CARD_HEIGHT
  {
    var across := RoundHundredths(TextExtent(contentLength, noteLength, tagCount, direction));
    var along := RoundHundredths(LineExtent(direction));
    var (width, height) := if direction == Horizontal then (along, across) else (across, along);
    FragmentSize(Clamp(width, MIN_CARD_WIDTH, MAX_CARD_WIDTH), Clamp(height, MIN_CARD_HEIGHT, MAX_CARD_HEIGHT))
  }

  /** JavaScript's `.length`: the number of UTF-16 code units, in which a
      character outside the Basic Multilingual Plane counts twice. */
  function Utf16Length(s: string): (n: nat)
    ensures |s| <= n <= 2 * |s|
    ensures (forall i :: 0 <= i < |s| ==> (s[i] as int) < 0x1_0000) ==> n == |s|
    ensures |s| == 1 ==> n == (if (s[0] as int) < 0x1_0000 then 1 else 2)
  {
    if |s| == 0 then 0
    else Utf16Length(s[..|s| - 1]) + (if (s[|s| - 1] as int) < 0x1_0000 then 1 else 2)
  }

  /** The UTF-16 length of a concatenation is the sum of the lengths. */
  lemma {:induction false} Utf16LengthAppend(a: string, b: string)
    ensures Utf16Length(a + b) == Utf16Length(a) + Utf16Length(b)
    decreases |b|
  {
    if |b| == 0 {
      assert a + b == a;
    } else {
      var front := b[..|b| - 1];
      assert (a + b)[..|a + b| - 1] == a + front;
      Utf16LengthAppend(a, front);
    }
  }

  /** Text of the first note, or the empty text when there is none. */
  function NoteText(fragment: Fragment): string
  {
    if |fragment.notes| > 0 then fragment.notes[0] else ""
  }

  /** calculateFragmentSize: truncate content and note, then measure. */
  function CalculateFragmentSize(fragment: Fragment, direction: Direction, cfg: Config): (size: FragmentSize)
    ensures MIN_CARD_WIDTH <= size.width <= MAX_CARD_WIDTH
    ensures MIN_CARD_HEIGHT <= size.height <= MAX_CARD_HEIGHT
  {
    var content := cfg.truncate(fragment.content, cfg.maxContentLength);
    var note := cfg.truncate(NoteText(fragment), cfg.maxNoteLength);
    SizeFromCounts(Utf16Length(content), Utf16Length(note), |fragment.tags|, direction)
  }

  /** Horizontal cards are always 11 cells wide; vertical ones always reach the
      maximum height, since 18.5 cells round to 19 before the clamp. */
  lemma FixedAxis(contentLength: nat, noteLength: nat, tagCount: nat)
    ensures SizeFromCounts(contentLength, noteLength, tagCount, Horizontal).width == 11
    ensures SizeFromCounts(contentLength, noteLength, tagCount, Vertical).height == MAX_CARD_HEIGHT
  {
  }

  /** Giving content lines priority over note lines never lets more content shrink
      the text extent: a content line costs more than the note line it displaces. */
  lemma {:induction false} TextExtentGrowsWithContent(c1: nat, c2: nat, noteLength: nat, tagCount: nat, direction: Direction)
    requires c1 <= c2
    ensures TextExtent(c1, noteLength, tagCount, direction) <= TextExtent(c2, noteLength, tagCount, direction)
  {
    var l1, l2 := ContentLines(c1), ContentLines(c2);
    assert l1 <= l2 by {
      if c1 > 0 {
        assert c1 <= l1 * CHARS_PER_LINE && c2 < l2 * CHARS_PER_LINE + CHARS_PER_LINE;
        assert (l1 - 1) * CHARS_PER_LINE < c1;
      }
    }
    var n := TextLines(noteLength);
    var a, b := CapLines(l1, n), CapLines(l2, n);
    assert a.0 <= b.0;
    assert a.0 + a.1 <= b.0 + b.1;
  }

  /** More content never yields a smaller card along the text-line axis. */
  lemma SizeGrowsWithContent(c1: nat, c2: nat, noteLength: nat, tagCount: nat)
    requires c1 <= c2
    ensures SizeFromCounts(c1, noteLength, tagCount, Horizontal).height <= SizeFromCounts(c2, noteLength, tagCount, Horizontal).height
    ensures SizeFromCounts(c1, noteLength, tagCount, Vertical).width <= SizeFromCounts(c2, noteLength, tagCount, Vertical).width
  {
    TextExtentGrowsWithContent(c1, c2, noteLength, tagCount, Horizontal);
    TextExtentGrowsWithContent(c1, c2, noteLength, tagCount, Vertical);
  }

  /** An empty fragment: one content line, no note, no tags. */
  lemma EmptyFragmentSize()
    ensures SizeFromCounts(0, 0, 0, Horizontal) == FragmentSize(11, 5)
    ensures SizeFromCounts(0, 0, 0, Vertical) == FragmentSize(5, MAX_CARD_HEIGHT)
  {
  }
}

=== FILE: stability.dfy ===
/** Stability of the layout: stored positions that reproduce a layout's records
    are kept as they are, so laying the same fragments out again writes nothing
    back. Two such stored positions are the layout's own output alone and the
    stored positions merged with what the layout wrote back. */
module Stability {
  import opened Geometry
  import opened SizeEstimator
  import opened OccupancyGrid
  import opened Boxes
  import opened Layout

  /** No two prepared fragments share an id. */
  ghost predicate DistinctIds(props: seq<Prepared>)
  {
    forall i, j :: 0 <= i < j < |props| ==> props[i].fragment.id != props[j].fragment.id
  }

  /** The position of every record by id: what a run without stored positions
      writes back, used as the stored positions of the next run. */
  function LaidOut(gridFragments: seq<GridFragment>): map<string, GridPosition>
  {
    PatchOf(map[], gridFragments, 0)
  }

  /** The output of one run with stored positions `positions`, as ComputeLayout
      describes it. */
  ghost predicate IsLayout(props: seq<Prepared>, positions: map<string, GridPosition>,
                           containerCols: int,
                           gridFragments: seq<GridFragment>, origin: seq<nat>, storedCount: nat,
                           turn: map<nat, nat>)
  {
    Records(props, gridFragments, origin) &&
    InPassOrder(props, positions, origin, storedCount) &&
    Sound(gridFragments, containerCols) &&
    Reconciled(positions, gridFragments, containerCols) &&
    (forall i :: 0 <= i < |props| && i !in origin ==>
      i in turn && DroppedAt(props, positions, containerCols, gridFragments, origin, storedCount, i, turn[i])) &&
    forall i :: 0 <= i < |props| && i !in origin ==>
      NoFit(BoxSet(gridFragments), props[i].size, containerCols)
  }

  /** With distinct ids, distinct records come from distinct fragments and carry distinct ids. */
  lemma RecordIdsDistinct(props: seq<Prepared>, positions: map<string, GridPosition>,
                          containerCols: int,
                          gridFragments: seq<GridFragment>, origin: seq<nat>, storedCount: nat,
                          turn: map<nat, nat>)
    requires DistinctIds(props)
    requires IsLayout(props, positions, containerCols, gridFragments, origin, storedCount, turn)
    ensures forall k1, k2 :: 0 <= k1 < |gridFragments| && 0 <= k2 < |gridFragments| && k1 != k2 ==>
      origin[k1] != origin[k2] && gridFragments[k1].fragment.id != gridFragments[k2].fragment.id
  {
    forall k1, k2 | 0 <= k1 < |gridFragments| && 0 <= k2 < |gridFragments| && k1 != k2
      ensures origin[k1] != origin[k2] && gridFragments[k1].fragment.id != gridFragments[k2].fragment.id
    {
      var lo, hi := Min(k1, k2), Max(k1, k2);
      assert origin[lo] != origin[hi];
      var i, j := origin[k1], origin[k2];
      assert gridFragments[k1].fragment == props[i].fragment && gridFragments[k2].fragment == props[j].fragment;
      if i < j {
        assert props[i].fragment.id != props[j].fragment.id;
      } else {
        assert props[j].fragment.id != props[i].fragment.id;
      }
    }
  }

  /** Every record's id is laid out at the record's position. */
  lemma LaidOutValue(gridFragments: seq<GridFragment>, k: int)
    requires 0 <= k < |gridFragments|
    requires forall k1, k2 :: 0 <= k1 < |gridFragments| && 0 <= k2 < |gridFragments| && k1 != k2 ==>
      gridFragments[k1].fragment.id != gridFragments[k2].fragment.id
    ensures gridFragments[k].fragment.id in LaidOut(gridFragments)
    ensures LaidOut(gridFragments)[gridFragments[k].fragment.id] == gridFragments[k].position
  {
    PatchOfValue(map[], gridFragments, 0, k);
  }

  /** Any patch of a layout's records only has ids of fragments that got a record. */
  lemma PatchedIdsAreRecords(props: seq<Prepared>, positions: map<string, GridPosition>,
                             containerCols: int,
                             gridFragments: seq<GridFragment>, origin: seq<nat>, storedCount: nat,
                             turn: map<nat, nat>,
                             patchedFrom: map<string, GridPosition>, patchCols: int, i: int)
    requires DistinctIds(props)
    requires IsLayout(props, positions, containerCols, gridFragments, origin, storedCount, turn)
    requires 0 <= i < |props| && props[i].fragment.id in PatchOf(patchedFrom, gridFragments, patchCols)
    ensures i in origin
  {
    PatchOfKeys(patchedFrom, gridFragments, patchCols);
    var k :| 0 <= k < |gridFragments| && Patched(patchedFrom, gridFragments[k], patchCols) &&
      props[i].fragment.id == gridFragments[k].fragment.id;
    assert gridFragments[k].fragment == props[origin[k]].fragment;
  }

  /** A record's position is already clipped: a patched record is a first fit,
      which ends inside the container, and any other one is a clipped stored position. */
  lemma RecordClipFixed(positions: map<string, GridPosition>, gridFragments: seq<GridFragment>,
                        containerCols: int, k: int)
    requires Reconciled(positions, gridFragments, containerCols)
    requires 0 <= k < |gridFragments|
    ensures var g := gridFragments[k];
      ClipCol(g.position, g.size.width, containerCols) == g.position
  {
    var g := gridFragments[k];
    assert RecordReconciled(positions, gridFragments[..k], g, containerCols);
    if !Patched(positions, g, containerCols) {
      ClipIdempotent(positions[g.fragment.id], g.size.width, containerCols);
    }
  }

  /** Stored positions `stored` reproduce a layout: every record's id is stored at
      a usable position that clips to the record's position, and every dropped
      fragment with a stored position had that same position in the layout's run. */
  ghost predicate Reproduces(props: seq<Prepared>, positions: map<string, GridPosition>,
                             containerCols: int,
                             gridFragments: seq<GridFragment>, origin: seq<nat>,
                             stored: map<string, GridPosition>)
    requires |origin| == |gridFragments|
  {
    (forall k :: 0 <= k < |gridFragments| ==>
      gridFragments[k].fragment.id in stored &&
      !IsProblematicPosition(stored[gridFragments[k].fragment.id]) &&
      ClipCol(stored[gridFragments[k].fragment.id], gridFragments[k].size.width, containerCols) ==
        gridFragments[k].position) &&
    forall i :: 0 <= i < |props| && i !in origin && props[i].fragment.id in stored ==>
      props[i].fragment.id in positions && stored[props[i].fragment.id] == positions[props[i].fragment.id]
  }

  /** The boxes of the records that come from fragments below n. */
  ghost function RecordsBelow(gridFragments: seq<GridFragment>, origin: seq<nat>, n: int): set<Box>
    requires |origin| == |gridFragments|
  {
    set k | 0 <= k < |gridFragments| && origin[k] < n :: BoxOf(gridFragments[k])
  }

  /** Fewer boxes never make a stored position unkeepable. */
  lemma KeepableShrinks(stored: GridPosition, size: FragmentSize, small: set<Box>, big: set<Box>, containerCols: int)
    requires small <= big
    ensures KeepableAt(stored, size, big, containerCols) ==> KeepableAt(stored, size, small, containerCols)
  {
  }

  /** The records before a dropped fragment's turn come from fragments before it. */
  lemma DroppedTurnBelow(props: seq<Prepared>, positions: map<string, GridPosition>,
                         containerCols: int,
                         gridFragments: seq<GridFragment>, origin: seq<nat>, storedCount: nat,
                         turn: map<nat, nat>, i: int)
    requires IsLayout(props, positions, containerCols, gridFragments, origin, storedCount, turn)
    requires 0 <= i < |props| && i !in origin && props[i].fragment.id in positions
    ensures i in turn && turn[i] <= |gridFragments|
    ensures BoxSet(gridFragments[..turn[i]]) <= RecordsBelow(gridFragments, origin, i)
  {
    var t := turn[i];
    assert DroppedAt(props, positions, containerCols, gridFragments, origin, storedCount, i, t);
    forall b | b in BoxSet(gridFragments[..t]) ensures b in RecordsBelow(gridFragments, origin, i) {
      var k :| 0 <= k < t && b == BoxOf(gridFragments[..t][k]);
      assert gridFragments[..t][k] == gridFragments[k] && origin[k] < i;
    }
  }

  /** Under reproducing stored positions, the stored position of record k's
      fragment can be kept against the records of the fragments before it, and
      it is kept at the record's own box. */
  lemma RecordKeepable(props: seq<Prepared>, positions: map<string, GridPosition>,
                       containerCols: int,
                       gridFragments: seq<GridFragment>, origin: seq<nat>, storedCount: nat,
                       turn: map<nat, nat>, stored: map<string, GridPosition>, k: int)
    requires DistinctIds(props)
    requires IsLayout(props, positions, containerCols, gridFragments, origin, storedCount, turn)
    requires Reproduces(props, positions, containerCols, gridFragments, origin, stored)
    requires 0 <= k < |gridFragments|
    ensures var p := props[origin[k]];
      p.fragment.id in stored &&
      KeepableAt(stored[p.fragment.id], p.size, RecordsBelow(gridFragments, origin, origin[k]), containerCols) &&
      Box(ClipCol(stored[p.fragment.id], p.size.width, containerCols), p.size) == BoxOf(gridFragments[k])
  {
    var g := gridFragments[k];
    assert g == Place(props[origin[k]], g.position);
    RecordIdsDistinct(props, positions, containerCols, gridFragments, origin, storedCount, turn);
    forall o | o in RecordsBelow(gridFragments, origin, origin[k]) ensures Disjoint(o, BoxOf(g)) {
      var k' :| 0 <= k' < |gridFragments| && origin[k'] < origin[k] && o == BoxOf(gridFragments[k']);
      if k' < k {
        assert Disjoint(BoxOf(gridFragments[k']), BoxOf(gridFragments[k]));
      } else {
        assert Disjoint(BoxOf(gridFragments[k]), BoxOf(gridFragments[k']));
      }
    }
    assert Good(g, containerCols);
  }

  /** Adding fragment i adds exactly the boxes of its records. */
  lemma RecordsBelowStep(props: seq<Prepared>, positions: map<string, GridPosition>,
                         containerCols: int,
                         gridFragments: seq<GridFragment>, origin: seq<nat>, storedCount: nat,
                         turn: map<nat, nat>, i: int)
    requires DistinctIds(props)
    requires IsLayout(props, positions, containerCols, gridFragments, origin, storedCount, turn)
    requires 0 <= i < |props|
    ensures i !in origin ==>
      RecordsBelow(gridFragments, origin, i + 1) == RecordsBelow(gridFragments, origin, i)
    ensures forall k :: 0 <= k < |origin| && origin[k] == i ==>
      RecordsBelow(gridFragments, origin, i + 1) == RecordsBelow(gridFragments, origin, i) + {BoxOf(gridFragments[k])}
  {
    RecordIdsDistinct(props, positions, containerCols, gridFragments, origin, storedCount, turn);
    forall b | b in RecordsBelow(gridFragments, origin, i + 1)
      ensures b in RecordsBelow(gridFragments, origin, i) || exists k :: 0 <= k < |origin| && origin[k] == i && b == BoxOf(gridFragments[k])
    {
      var k :| 0 <= k < |gridFragments| && origin[k] < i + 1 && b == BoxOf(gridFragments[k]);
    }
  }

  /** Under reproducing stored positions, the boxes pass A keeps among the
      fragments below n are the records of those fragments. */
  lemma {:induction false} KeptIsRecords(props: seq<Prepared>, positions: map<string, GridPosition>,
                                         containerCols: int,
                                         gridFragments: seq<GridFragment>, origin: seq<nat>, storedCount: nat,
                                         turn: map<nat, nat>, stored: map<string, GridPosition>, n: int)
    requires DistinctIds(props)
    requires IsLayout(props, positions, containerCols, gridFragments, origin, storedCount, turn)
    requires Reproduces(props, positions, containerCols, gridFragments, origin, stored)
    requires 0 <= n <= |props|
    ensures Kept(props, stored, containerCols, n) == RecordsBelow(gridFragments, origin, n)
    decreases n
  {
    if n > 0 {
      var i := n - 1;
      KeptIsRecords(props, positions, containerCols, gridFragments, origin, storedCount, turn, stored, i);
      KeptStep(props, stored, containerCols, i);
      RecordsBelowStep(props, positions, containerCols, gridFragments, origin, storedCount, turn, i);
      if i in origin {
        var k :| 0 <= k < |origin| && origin[k] == i;
        RecordKeepable(props, positions, containerCols, gridFragments, origin, storedCount, turn, stored, k);
      } else if props[i].fragment.id in stored {
        var id := props[i].fragment.id;
        DroppedTurnBelow(props, positions, containerCols, gridFragments, origin, storedCount, turn, i);
        assert DroppedAt(props, positions, containerCols, gridFragments, origin, storedCount, i, turn[i]);
        KeepableShrinks(stored[id], props[i].size, BoxSet(gridFragments[..turn[i]]),
                        RecordsBelow(gridFragments, origin, i), containerCols);
      }
    }
  }

  /** Stored positions that reproduce a layout are quiet, and pass A keeps exactly
      the layout's boxes. */
  lemma ReproducedIsQuiet(props: seq<Prepared>, positions: map<string, GridPosition>,
                          containerCols: int,
                          gridFragments: seq<GridFragment>, origin: seq<nat>, storedCount: nat,
                          turn: map<nat, nat>, stored: map<string, GridPosition>)
    requires DistinctIds(props)
    requires IsLayout(props, positions, containerCols, gridFragments, origin, storedCount, turn)
    requires Reproduces(props, positions, containerCols, gridFragments, origin, stored)
    ensures Quiet(props, stored, containerCols)
    ensures Kept(props, stored, containerCols, |props|) == BoxSet(gridFragments)
  {
    KeptIsRecords(props, positions, containerCols, gridFragments, origin, storedCount, turn, stored, |props|);
    assert RecordsBelow(gridFragments, origin, |props|) == BoxSet(gridFragments);
    forall i | 0 <= i < |props| && props[i].fragment.id in stored
      ensures KeepableAt(stored[props[i].fragment.id], props[i].size, Kept(props, stored, containerCols, i), containerCols) ||
              NoFit(Kept(props, stored, containerCols, i), props[i].size, containerCols)
    {
      KeptIsRecords(props, positions, containerCols, gridFragments, origin, storedCount, turn, stored, i);
      if i in origin {
        var k :| 0 <= k < |origin| && origin[k] == i;
        RecordKeepable(props, positions, containerCols, gridFragments, origin, storedCount, turn, stored, k);
      } else {
        DroppedTurnBelow(props, positions, containerCols, gridFragments, origin, storedCount, turn, i);
        assert DroppedAt(props, positions, containerCols, gridFragments, origin, storedCount, i, turn[i]);
        NoFitGrows(BoxSet(gridFragments[..turn[i]]), RecordsBelow(gridFragments, origin, i), props[i].size, containerCols);
      }
    }
    forall k | 0 <= k < |gridFragments|
      ensures props[origin[k]].fragment.id in stored
    {
      assert gridFragments[k].fragment == props[origin[k]].fragment;
    }
  }

  /** A layout's own output, as stored positions, reproduces the layout. */
  lemma LaidOutReproduces(props: seq<Prepared>, positions: map<string, GridPosition>,
                          containerCols: int,
                          gridFragments: seq<GridFragment>, origin: seq<nat>, storedCount: nat,
                          turn: map<nat, nat>)
    requires DistinctIds(props)
    requires IsLayout(props, positions, containerCols, gridFragments, origin, storedCount, turn)
    ensures Reproduces(props, positions, containerCols, gridFragments, origin, LaidOut(gridFragments))
  {
    RecordIdsDistinct(props, positions, containerCols, gridFragments, origin, storedCount, turn);
    forall k | 0 <= k < |gridFragments|
      ensures gridFragments[k].fragment.id in LaidOut(gridFragments) &&
        LaidOut(gridFragments)[gridFragments[k].fragment.id] == gridFragments[k].position
    {
      LaidOutValue(gridFragments, k);
      RecordClipFixed(positions, gridFragments, containerCols, k);
    }
    forall k | 0 <= k < |gridFragments|
      ensures var g := gridFragments[k];
        ClipCol(g.position, g.size.width, containerCols) == g.position && Good(g, containerCols)
    {
      RecordClipFixed(positions, gridFragments, containerCols, k);
    }
    forall i | 0 <= i < |props| && props[i].fragment.id in LaidOut(gridFragments)
      ensures i in origin
    {
      PatchedIdsAreRecords(props, positions, containerCols, gridFragments, origin, storedCount, turn,
                           map[], 0, i);
    }
  }

  /** The stored positions merged with what the layout wrote back reproduce the layout. */
  lemma MergedReproduces(props: seq<Prepared>, positions: map<string, GridPosition>,
                         containerCols: int,
                         gridFragments: seq<GridFragment>, origin: seq<nat>, storedCount: nat,
                         turn: map<nat, nat>)
    requires DistinctIds(props)
    requires IsLayout(props, positions, containerCols, gridFragments, origin, storedCount, turn)
    ensures Reproduces(props, positions, containerCols, gridFragments, origin,
                       positions + PatchOf(positions, gridFragments, containerCols))
  {
    var patch := PatchOf(positions, gridFragments, containerCols);
    var merged := positions + patch;
    RecordIdsDistinct(props, positions, containerCols, gridFragments, origin, storedCount, turn);
    PatchOfKeys(positions, gridFragments, containerCols);
    forall k | 0 <= k < |gridFragments|
      ensures var g := gridFragments[k];
        g.fragment.id in merged && !IsProblematicPosition(merged[g.fragment.id]) &&
        ClipCol(merged[g.fragment.id], g.size.width, containerCols) == g.position
    {
      var g := gridFragments[k];
      assert RecordReconciled(positions, gridFragments[..k], g, containerCols);
      assert Good(g, containerCols);
      if Patched(positions, g, containerCols) {
        PatchOfValue(positions, gridFragments, containerCols, k);
        RecordClipFixed(positions, gridFragments, containerCols, k);
      } else {
        forall k' | 0 <= k' < |gridFragments| && Patched(positions, gridFragments[k'], containerCols)
          ensures gridFragments[k'].fragment.id != g.fragment.id
        {
        }
        assert g.fragment.id !in patch;
      }
    }
    forall i | 0 <= i < |props| && props[i].fragment.id in patch
      ensures i in origin
    {
      PatchedIdsAreRecords(props, positions, containerCols, gridFragments, origin, storedCount, turn,
                           positions, containerCols, i);
    }
  }

  /** Running the layout, then running it again with its own output as the stored
      positions: the second run writes nothing back and places the same boxes. */
  method RelayoutIsStable(fragments: seq<Fragment>, positions: map<string, GridPosition>,
                          directionMap: map<string, Direction>, cfg: Config)
    returns (gridFragments: seq<GridFragment>, relaid: seq<GridFragment>, newPositions: map<string, GridPosition>)
    requires forall i, j :: 0 <= i < j < |fragments| ==> fragments[i].id != fragments[j].id
    ensures newPositions == map[]
    ensures BoxSet(relaid) == BoxSet(gridFragments)
  {
    var patch;
    ghost var props, origin, storedCount, turn;
    gridFragments, patch, props, origin, storedCount, turn := ComputeLayout(fragments, positions, directionMap, cfg);
    LaidOutReproduces(props, positions, cfg.containerCols, gridFragments, origin, storedCount, turn);
    ReproducedIsQuiet(props, positions, cfg.containerCols, gridFragments, origin, storedCount, turn,
                      LaidOut(gridFragments));
    relaid, newPositions, props, origin, storedCount, turn :=
      ComputeLayout(fragments, LaidOut(gridFragments), directionMap, cfg);
  }

  /** Running the layout, merging what it wrote back into the stored positions and
      running it again: the second run writes nothing back and places the same boxes. */
  method MergedRelayoutIsStable(fragments: seq<Fragment>, positions: map<string, GridPosition>,
                                directionMap: map<string, Direction>, cfg: Config)
    returns (gridFragments: seq<GridFragment>, patch: map<string, GridPosition>,
             relaid: seq<GridFragment>, newPositions: map<string, GridPosition>)
    requires forall i, j :: 0 <= i < j < |fragments| ==> fragments[i].id != fragments[j].id
    ensures newPositions == map[]
    ensures BoxSet(relaid) == BoxSet(gridFragments)
  {
    ghost var props, origin, storedCount, turn;
    gridFragments, patch, props, origin, storedCount, turn := ComputeLayout(fragments, positions, directionMap, cfg);
    MergedReproduces(props, positions, cfg.containerCols, gridFragments, origin, storedCount, turn);
    ReproducedIsQuiet(props, positions, cfg.containerCols, gridFragments, origin, storedCount, turn,
                      positions + patch);
    relaid, newPositions, props, origin, storedCount, turn :=
      ComputeLayout(fragments, positions + patch, directionMap, cfg);
  }
}
